=== FILE: README.md ===
# SDG value-investing survey — a Dafny model

The application walks a user through a short survey: pick three of the
seventeen UN Sustainable Development Goals (SDGs), rate each picked goal from
1 to 5, describe a risk attitude, past investments and an investment period,
and then see a dashboard of recommended companies. Picking a company opens a
generated introduction video and then a detail page (a generated image, an
investment report and a promotional text split into body and hashtags). The
repository also has a radar-chart component of goal alignment, which none of
the screens renders. Recommendations come from a generative-model service, or
from a fixed fallback list when no API key is configured or the call fails.

This project models the deterministic core of that application as pure Dafny
functions over immutable datatypes, and proves the rules each screen and the
service promise:

| module | file | models |
|---|---|---|
| `Types` | types.dfy | the records of types.ts; `null`/`undefined` become `Option` |
| `JsText` | js_text.dfy | the ECMAScript whitespace set, `String.prototype.trim`, `split(' ')[0]` |
| `Constants` | constants.dfy | the seventeen-goal table `SDG_LIST` and `Array.prototype.find` lookups on it |
| `SdgSelection` | sdg_selection.dfy | pick-three toggle, card gate, "next" guard, score initialisation and score buttons |
| `InvestmentSurvey` | investment_survey.dfy | risk options, experience toggle, submit check and disabled button |
| `GeminiService` | gemini_service.dfy | risk label → number, the 17-slot score vector, the fallback answer and when it is used, the inline-image search and its data URL |
| `CompanyDetail` | company_detail.dfy | `formatSnsText`, the hashtag splitter |
| `RadarChart` | radar_chart.dfy | the `chartData` points of the radar-chart component |
| `App` | app.dfy | the step machine of App.tsx, its handlers, the video generations and recommendation calls still running, and the selected-company invariant over every run |

Modelling choices, in the program's own terms:

- JavaScript arrays written at `id - 1` follow the language: a write inside the
  array overwrites, a write past its end grows it and leaves holes, a write at
  a negative index leaves the elements alone (`GeminiService.ArrayWrite`).
  A read outside the array is `undefined`, here `None` (`RadarChart.ArrayRead`).
- Truthiness is modelled where the code relies on it: an empty period string
  and an empty inline-image payload are false, an empty company list is true.
- `/(\s|^)#/` and `trim` use the ECMAScript WhiteSpace and LineTerminator code
  points (`JsText.JsSpaces`).
- A missing MIME type is printed by the template literal as `undefined`
  (`GeminiService.MimeText`).
- The generative calls are foreign: their outcome is an input (`LlmCall`,
  `ImageCall`), and whether an API key is set is a boolean parameter.
- The step type declared in types.ts:50 has no `video-intro`, but App.tsx sets
  and renders that step (App.tsx:69, App.tsx:109); `App.Step` has it.
- Importance scores and the dense score vector are integers (they come from
  the 1..5 buttons, the default 3 and the 0 fill); match scores and alignment
  values are reals.
- The dense score vector is seventeen slots long only while every goal id is
  at most 17; an id of 18 grows it (`GeminiService.DenseVectorGrowsPastSeventeen`).
  The ids the screens produce come from the table, so the app never does this.
- `riskToFloat` takes the risk label as a string (`GeminiService.RiskToFloat`),
  so its default branch, which the declared label type never reaches, is
  modelled too.
- `riskToFloat` (services/geminiService.ts:16-23) and the dense score vector
  `fullSdgScores` (services/geminiService.ts:66-69) are dead code: nothing
  calls the first and nothing reads the second. The prompt prints each scored
  goal's title, code and score and the raw risk label instead. Both are
  modelled because they are the service's only numeric rules.
- The fallback companies leave out the report, promotion and image fields
  that types.ts:34-36 declares, so those fields are `Option`s.
- A user event is only applied when the screen showing at that step wires
  its handler (`App.Offered`): for example the selection screen's "next"
  button is enabled only with three goals, and a company can only be picked
  from the dashboard's list. Two events are not tied to a screen, because
  they end asynchronous work that keeps running after its screen is left:
  - the end of a video generation (`App.VideoSettled`). The video screen
    starts one when it opens; when it fails it calls the completion handler
    (components/CompanyIntroVideo.tsx:43-55);
  - the answer of a recommendation call (`App.RecommendationsArrived`).
    Submitting the survey starts one, and its answer is applied to whatever
    step the application has reached (App.tsx:51-62).

  `App.Machine` counts the generations and calls still running, and either
  can end at any step. `App.NextAsWritten` is the program's step, including
  both of these. `App.Next` is the same step except that it drops a result
  that arrives after its screen was left (see "## Findings"). In the
  intended flow a call is running exactly while the loading screen shows
  (`App.ReachableCallOnlyWhileLoading`), so `App.Next` never drops an answer.

## Model

| member | source | states |
|---|---|---|
| Constants.GoalCode | constants.tsx:29-45 | a code is `G` and two decimal digits that spell the id |
| Constants.SdgListShape | constants.tsx:28-46 | the table has 17 entries, entry k has id k+1 and the code `GoalCode(k+1)` |
| Constants.GoalCodeInjective | constants.tsx:29-45 | two ids in 0..99 have the same code exactly when they are equal |
| Constants.SdgListDistinct | constants.tsx:28-46 | no two table entries share an id or a code |
| Constants.Find | services/geminiService.ts:72 | `find` by id (here) or by code (components/Dashboard.tsx:48) is `Some` exactly when some entry matches, and then it is the first matching entry |
| Constants.FindOnlyMatch | constants.tsx:28-46 | when exactly one entry matches, the lookup returns that entry |
| Constants.LookupByIdOrCode | constants.tsx:28-46 | for every id 1..17, the lookup by id and the lookup by code `G01`..`G17` find the same single entry |
| Constants.LookupUnknownCode | constants.tsx:28-46 | a code other than `G01`..`G17` finds no entry |
| JsText.Trim | components/CompanyDetail.tsx:35-36 | `trim` keeps a contiguous slice, drops only whitespace on either side, leaves no whitespace at its ends, and is empty exactly for all-whitespace text |
| JsText.TrimIsPadding | components/CompanyDetail.tsx:35-36 | the input is the trimmed text with only whitespace before and after it |
| JsText.FirstWord | components/RadarChartComponent.tsx:17 | the result is a prefix without a space, ending at the first space or at the end of the text |
| SdgSelection.WithoutId | components/SdgSelection.tsx:26 | the filter removes every entry with the id, keeps only original entries, shrinks the list when the id was present and changes nothing when absent |
| SdgSelection.ToggleSdg | components/SdgSelection.tsx:23-33 | a selected goal is removed by the id filter; an unselected one is appended below three and ignored at three; the goal is held afterwards exactly when it was absent with room left |
| SdgSelection.WithoutIdConcat | components/SdgSelection.tsx:26 | filtering a concatenation filters each part |
| SdgSelection.WithoutIdRemovesOne | components/SdgSelection.tsx:25-26 | in a list without repeated ids, filtering out entry i's id removes exactly entry i |
| SdgSelection.DeselectKeepsOrder | components/SdgSelection.tsx:25-26 | clicking a selected goal removes it and keeps the others in their order |
| SdgSelection.WithoutIdKeepsDistinct | components/SdgSelection.tsx:26 | filtering keeps a list free of repeated ids |
| SdgSelection.ToggleKeepsValid | components/SdgSelection.tsx:23-33 | after any click the selection still has no repeated id and at most three goals |
| SdgSelection.SelectThenDeselect | components/SdgSelection.tsx:25-29 | appending an absent goal below three and clicking it again restores the earlier list |
| SdgSelection.WithoutIdAppendAbsent | components/SdgSelection.tsx:26-29 | filtering the appended goal's id off a list that lacked it gives back the list |
| SdgSelection.CardDisabled | components/SdgSelection.tsx:119 | definition of the card's `disabled` flag: three goals held and this one not among them |
| SdgSelection.ClickCard | components/SdgCard.tsx:24 | a disabled card (three held, this one not among them) ignores the click |
| SdgSelection.CardGateAgreesWithToggle | components/SdgSelection.tsx:119 | the card's gate never changes the outcome: clicking through it equals the toggle |
| SdgSelection.ClicksKeepValid | components/SdgSelection.tsx:113-121 | any sequence of card clicks from a valid selection leaves a valid selection |
| SdgSelection.Proceed | components/SdgSelection.tsx:126-127 | the selection is handed on exactly when it holds three goals, and unchanged |
| SdgSelection.ProceedHasThreeGoals | components/SdgSelection.tsx:126-127 | a selection that passes the guard names three different goals |
| SdgSelection.InitScores | components/SdgSelection.tsx:17-21 | with goals to score, one entry per goal in order, each at 3; with none, the scores stay as they were |
| SdgSelection.ChangeScore | components/SdgSelection.tsx:35-37 | same length and goal ids; entries of other goals unchanged; entries of the goal take the new value |
| SdgSelection.FindScore | components/SdgSelection.tsx:51 | `find` by goal id is `Some` exactly when an entry has the id, and then it is the first entry with the id |
| SdgSelection.ShownScore | components/SdgSelection.tsx:51 | a goal without an entry shows 3; a goal whose first entry has a non-zero score shows that score, and one whose first entry scores 0 shows 3 |
| SdgSelection.ShownIsFirstEntry | components/SdgSelection.tsx:51 | with scores in 1..5, a goal's first entry is the score its buttons highlight |
| SdgSelection.InitScoresShowDefault | components/SdgSelection.tsx:17-21 | freshly initialised scores lie in 1..5 and every picked goal shows 3 |
| SdgSelection.ChangeScoreFromButton | components/SdgSelection.tsx:62-66 | a button click keeps all scores in 1..5 and the goal then shows the clicked value |
| SdgSelection.ChangeScoreLastWins | components/SdgSelection.tsx:35-37 | two clicks on one goal's buttons equal the last click alone |
| InvestmentSurvey.RiskOptionsAreTheThreeLabels | components/InvestmentSurvey.tsx:10-14 | the risk options are safe, neutral, aggressive in that order, each captioned with its own label |
| InvestmentSurvey.RemoveAll | components/InvestmentSurvey.tsx:27 | the filter removes every copy of the item and keeps the count of every other item |
| InvestmentSurvey.RemoveAllConcat | components/InvestmentSurvey.tsx:27 | filtering a concatenation filters each part, so the kept items stay in their order |
| InvestmentSurvey.ToggleRemovesInPlace | components/InvestmentSurvey.tsx:24-30 | in a list without repeats, unchoosing item i removes exactly that item and keeps the rest in order |
| InvestmentSurvey.ToggleExperience | components/InvestmentSurvey.tsx:24-30 | a chosen kind is removed everywhere, an unchosen one is appended, other kinds keep their counts |
| InvestmentSurvey.NoDuplicatesCounts | components/InvestmentSurvey.tsx:24-30 | a list has no repeats exactly when every item occurs at most once |
| InvestmentSurvey.ToggleKeepsNoDuplicates | components/InvestmentSurvey.tsx:24-30 | toggling keeps the list free of repeats |
| InvestmentSurvey.ToggleTwiceRestores | components/InvestmentSurvey.tsx:24-30 | toggling an absent kind twice restores the list |
| InvestmentSurvey.RemoveAllAppended | components/InvestmentSurvey.tsx:27-28 | removing an appended kind that was absent gives back the list |
| InvestmentSurvey.Truthy | components/InvestmentSurvey.tsx:33 | definition of the period's truthiness: a string that is present and non-empty |
| InvestmentSurvey.SubmitDisabled | components/InvestmentSurvey.tsx:110 | definition of the submit button's `disabled` expression |
| InvestmentSurvey.HandleSubmit | components/InvestmentSurvey.tsx:32-38 | completes exactly when a risk attitude, a non-empty period and at least one kind are chosen, handing on exactly those answers; alerts otherwise |
| InvestmentSurvey.DisabledIffRejected | components/InvestmentSurvey.tsx:110 | the button is disabled exactly when submitting would alert |
| InvestmentSurvey.ListedAnswersSubmit | components/InvestmentSurvey.tsx:10-22 | the form as it opens (nothing chosen) alerts; choosing any listed risk option, kind and period from there submits exactly those answers |
| GeminiService.RiskToFloat | services/geminiService.ts:16-23 | the result lies in 0..1, and any label other than safe and aggressive gives 0.5 |
| GeminiService.RiskToFloatOrdered | services/geminiService.ts:16-23 | safe, neutral, aggressive give 0.0, 0.5, 1.0, strictly rising |
| GeminiService.ArrayWrite | services/geminiService.ts:68 | a JavaScript write overwrites in range, grows the array with holes past its end, and ignores negative indices |
| GeminiService.LastScore | services/geminiService.ts:67-69 | reference meaning of a slot: `None` exactly when no entry has the goal, else the score of the last entry for it |
| GeminiService.LastScoreExtend | services/geminiService.ts:67-69 | one more entry changes the last score of its own goal only |
| GeminiService.WriteKeepsMeaning | services/geminiService.ts:67-69 | each write moves all seventeen slots to their meaning for one more entry |
| GeminiService.BuildFullSdgScores | services/geminiService.ts:66-69 | slot k holds the last score given for goal k+1, or 0; the vector has at least 17 slots, exactly 17 when every id is at most 17 |
| GeminiService.DenseVectorGrowsPastSeventeen | services/geminiService.ts:66-68 | a goal id of 18 makes the vector eighteen slots long |
| GeminiService.MockResponse | services/geminiService.ts:25-54 | three companies, every alignment seventeen values in 1..5, no report/promotion/image fields, match scores strictly falling |
| GeminiService.MockTopGoalRatedFive | services/geminiService.ts:31-50 | each fallback company's top goal is a table code whose alignment slot holds 5 |
| GeminiService.GetCompanyRecommendations | services/geminiService.ts:57-139 | without a key or on a failed call the answer is the fallback; otherwise it is the parsed value |
| GeminiService.FallbackAlwaysLists | services/geminiService.ts:61-63 | without a key or on a failed call the answer lists three companies |
| GeminiService.PartsOf | services/geminiService.ts:154 | definition of the parts a candidate offers the loop: its content's parts, or none when content or parts are missing |
| GeminiService.HasInlineData | services/geminiService.ts:155 | definition of `part.inlineData && part.inlineData.data`: inline data with a non-empty payload |
| GeminiService.MimeText | services/geminiService.ts:156 | definition of the template literal's text for the MIME type: the type, or `undefined` when it is missing |
| GeminiService.AllPartsMembers | services/geminiService.ts:153-154 | the parts the loops visit are exactly the parts of the candidates, each candidate's parts occurring at least as often as in that candidate |
| GeminiService.AllPartsConcat | services/geminiService.ts:153-154 | the parts of two candidate lists in a row are the first list's parts followed by the second's |
| GeminiService.FirstInlineIn | services/geminiService.ts:153-158 | `None` exactly when no part has a non-empty payload, else the first part that has one |
| GeminiService.FirstInline | services/geminiService.ts:153-159 | the nested candidate/part loops find the same part as a search of all parts in order |
| GeminiService.FirstInlineConcat | services/geminiService.ts:153-159 | searching a concatenation finds a hit in the left part before the right |
| GeminiService.DataUrl | services/geminiService.ts:156 | the URL is `data:`, the MIME type, `;base64,`, the payload, in that layout (section 3 of RFC 2397) |
| GeminiService.GenerateCompanyImage | services/geminiService.ts:141-165 | an image exactly when a key is set, the call answered and some part has a payload; then the data URL of the first such part |
| CompanyDetail.MatchesAt | components/CompanyDetail.tsx:32 | definition of where the hashtag regular expression matches: a `#` opening the text, or whitespace followed by `#` |
| CompanyDetail.FirstMatch | components/CompanyDetail.tsx:32 | the regular-expression search returns a matching position and no earlier position matches; `None` means nothing matches |
| CompanyDetail.FormatSnsText | components/CompanyDetail.tsx:29-40 | empty text gives two empty parts; no match keeps the text whole; otherwise the trimmed halves before and from the first match |
| CompanyDetail.TagsStartWithHash | components/CompanyDetail.tsx:32-37 | when the text is split, the tag line is non-empty and starts with `#` |
| CompanyDetail.SplitLosesOnlyWhitespace | components/CompanyDetail.tsx:29-40 | there is a cut of the text such that the body is the part before it and the tags the part after it, each up to surrounding whitespace |
| CompanyDetail.MatchInSlice | components/CompanyDetail.tsx:32 | a match inside a slice is a match of the whole text, unless it is the slice's opening `#` |
| CompanyDetail.MainHasNoHashtag | components/CompanyDetail.tsx:32-36 | the body holds no `#` that opens it or follows whitespace |
| CompanyDetail.LeadingHashIsAllTags | components/CompanyDetail.tsx:32-37 | text opening with `#` has an empty body and the trimmed text as tags |
| CompanyDetail.NoHashtagKeepsText | components/CompanyDetail.tsx:39 | text with no match comes back untrimmed as the body with empty tags |
| RadarChart.ArrayRead | components/RadarChartComponent.tsx:18 | a read is a value exactly inside the array, and then it is that element |
| RadarChart.ChartData | components/RadarChartComponent.tsx:16-21 | one point per picked goal in order; user and full mark 5; company value present exactly when 1 <= id <= length and then `alignment[id-1]`; subject is the title up to its first space |
| RadarChart.TableGoalsAlwaysCharted | components/RadarChartComponent.tsx:16-21 | goals from the table charted against a seventeen-value alignment all get a company value |
| App.HandleStart | App.tsx:33 | the start button moves to goal selection and changes nothing else |
| App.HandleSdgSelectNext | App.tsx:35-38 | records the goals and moves to scoring; the rest of the survey and the state is unchanged |
| App.HandleSdgScoreNext | App.tsx:40-43 | records the scores and moves to the survey; the rest of the survey and the state is unchanged |
| App.HandleSurveyComplete | App.tsx:45-49 | the answers overwrite the three survey fields, goals and scores stay, the spinner shows and the error is cleared |
| App.HandleRecommendations | App.tsx:51-62 | an answer with a company list opens the dashboard with exactly that list; anything else returns to the survey with an error; survey and selection unchanged |
| App.HandleSelectCompany | App.tsx:66-70 | picking a company shows its video with that company selected; survey, list and error unchanged |
| App.HandleVideoComplete | App.tsx:72-74 | from whatever step, the detail step with the same selection; survey, list and error unchanged |
| App.HandleBackToDashboard | App.tsx:76-79 | back returns to the dashboard with no company selected; survey, list and error unchanged |
| App.HandleRestart | App.tsx:81-93 | restart shows the start screen with empty survey, no companies, no selection, no error |
| App.RestartIdempotent | App.tsx:81-93 | restart forgets the state: any two states restart to the same state, and restarting twice equals once |
| App.Offered | App.tsx:95-116 | definition of which events can happen: each step's screen wires only its own handlers; the selection's "next" needs three goals (components/SdgSelection.tsx:127); a company comes from the dashboard's list; a generation or a call can end whenever one is running |
| App.NextAsWritten | components/CompanyIntroVideo.tsx:38-57 | every user event keeps the invariant; picking a company starts one more generation; a generation's end removes one, and a failed one moves to the detail step keeping the selection, from any step; submitting starts one more call; an answer ends one and opens the dashboard or the survey from any step, keeping the invariant when no company is selected and no error shown |
| App.Next | App.tsx:95-116 | the corrected step keeps the invariant (a company is selected exactly on the video and detail steps and is a listed one; errors show only on the survey) and keeps a call running exactly on the loading step; it is the program's step except for a generation ending off the video screen or an answer arriving off the loading screen, which change nothing on screen |
| App.RunConcat | App.tsx:95-116 | replaying two event lists in a row is replaying their concatenation |
| App.RunKeepsInv | App.tsx:95-116 | every run of corrected steps from a state with the invariant ends in a state with it |
| App.ReachableHasInv | App.tsx:109-112 | with the corrected steps, every state reachable from the start has a company to show on the video and detail steps |
| App.RunKeepsCallMatch | App.tsx:45-62 | every corrected run from a state with a call running exactly on the loading step keeps that |
| App.ReachableCallOnlyWhileLoading | App.tsx:45-62 | in the corrected flow from the start, a call is running exactly while the loading step shows, never more than one, so an answer always finds the loading step |
| App.ForwardFlow | App.tsx:33-43 | start, three goals, their scores lead, in the program and in the corrected flow, to the survey step with those goals and scores recorded and no generation running |
| App.FallbackReachesDashboard | App.tsx:51-55 | without a key or on a failed call the loading step always opens the dashboard with the fallback companies |
| App.FallbackDashboardReachable | App.tsx:33-62 | from the start, the survey and a failed call reach the dashboard of fallback companies with the invariant and no generation or call running |
| App.CompanyRoundTrip | App.tsx:66-79 | picking a listed company, finishing its video and going back restores the dashboard state, with one generation still running |
| App.LateFailureStrandsDetail | App.tsx:72-79 | in the program, picking, skipping, going back and then a failed generation leaves the detail step with no company selected, which breaks the invariant |
| App.LateFailureWhileLoadingRecovers | App.tsx:51-62 | in the program, a generation failing while the loading step waits shows the detail step with no company until the answer, which then opens the dashboard or the survey exactly as without the failure, with the invariant back |
| App.StrandedOffersNothing | App.tsx:109-112 | on the detail step with no company and nothing running, no event can happen |
| App.LateFailureIgnored | App.tsx:72-79 | in the corrected flow the same events give back the dashboard state unchanged |
| App.DeadEndReachable | components/CompanyIntroVideo.tsx:47-55 | the program reaches, from the start screen, the detail step with no selected company and nothing running, where no event can happen |

## Findings

| source | as written | input that shows it | evidently intended | confidence | as-written member | corrected member |
|---|---|---|---|---|---|---|
| components/CompanyIntroVideo.tsx:47-55 | a video generation that ends without a video calls the completion handler even after the user has left the video screen, and `handleVideoComplete` (App.tsx:72-74) sets the detail step whatever the current step | pick a company, skip the video, go back to the dashboard, then the generation fails: the step is detail with no selected company, and App.tsx:112 renders an empty element with no way back | the end of a generation takes effect only while the video introduction is showing | not executed; medium, since whether and when a generation fails depends on `generateCompanyVideo`, which is not part of this model | App.DeadEndReachable, App.LateFailureStrandsDetail | App.ReachableHasInv, App.Next, App.LateFailureIgnored |

## Left out

- The delimited-table loader, the per-company scoring, the risk multiplier and
  top-N ranking: no source file implements them; the only recommendation
  source is the generative call or its fallback.
- The generative-model requests, prompt text, response schema and
  `JSON.parse` (services/geminiService.ts:71-131, 148-151): foreign calls;
  their outcome is an input.
- `process.env.API_KEY` and the console warnings: configuration and logging;
  the key is a boolean parameter.
- The 1.5 second delay before the fallback answer (services/geminiService.ts:63),
  `async`/`await`, React effects and timers: timing only; outcomes are modelled
  as plain transitions.
- The prompt text (services/geminiService.ts:70-91), which lists each scored
  goal's title, code and score and the raw risk label: formatting for the
  foreign call.
- `generateCompanyVideo` is not part of this model: whether a generation
  fails is the `failed` input of `App.VideoSettled`. Of the CompanyIntroVideo
  component only its calls of the completion handler are modelled: the user's
  `App.VideoCompleted` and a failed generation's `App.VideoSettled`. Its
  rotating messages and the video playback are not modelled.
- Rendering, CSS, icons, the start screen's animation, the card styling, the
  dashboard layout and the recharts drawing.
- `toFixed(1)` formatting of match scores: float-to-string formatting.
- `alert`: modelled as the `Alerted` outcome, without the dialog.
- `ModelOutput`: a parsed answer whose `recommended_companies` is a truthy
  value other than a list is modelled as `None`, which takes the error path.
  The program would open the dashboard with that value (App.tsx:53-55), and
  `recommendations.map` would then throw (components/Dashboard.tsx:47). The
  response schema requires a list (services/geminiService.ts:93-116), and a
  thrown rendering error is outside this model.
- The success of a video generation only changes the video screen's own
  state (it starts playing); the model keeps just the count of running
  generations and what a failure does to the application.
- The radio-style setters for risk attitude and period (`setRiskPreference`,
  `setInvestmentPeriod`): plain assignments; their effect is the form fields
  `HandleSubmit` reads.
- App.NextAsWritten: an arriving answer is promised to keep the invariant
  only when no company is selected and no error is shown. The program applies
  the answer on whatever step shows (App.tsx:51-62) and touches neither the
  selection nor a success's error. The model does not characterise the
  states in which the program's own runs have a call running; it proves the
  invariant for the intended flow (`App.ReachableHasInv`).
- GeminiService.BuildFullSdgScores: length 17 is promised only when every id
  is at most 17, because the JavaScript write grows the array otherwise.

=== FILE: app.dfy ===
/** The application's screen flow (App.tsx): named steps, the handlers each
    screen is wired to, and what every handler does to the shared state. */
module App {
  import opened Types
  import SdgSelection
  import InvestmentSurvey
  import GeminiService

  /** The steps the screen switch actually renders, including the video
      introduction that the declared step type leaves out. */
  datatype Step = Start | SdgSelect | SdgScoring | Investment | Loading | Dashboard | VideoIntro | Detail

  datatype AppState = AppState(
    step: Step,
    surveyData: SurveyData,
    recommendations: seq<CompanyRecommendation>,
    selectedCompany: Option<CompanyRecommendation>,
    error: Option<string>)

  const EmptySurvey := SurveyData([], [], None, [], None)
  const Initial := AppState(Start, EmptySurvey, [], None, None)
  const ErrorMessage: string := "AI 모델 호출 중 오류가 발생했습니다. 잠시 후 다시 시도해주세요."

  /** `handleStart` */
  function HandleStart(s: AppState): (t: AppState)
    ensures t.step == SdgSelect
    ensures t == s.(step := SdgSelect)
  {
    s.(step := SdgSelect)
  }

  /** `handleSdgSelectNext`: records the goals; nothing else of the survey changes. */
  function HandleSdgSelectNext(s: AppState, sdgs: seq<Sdg>): (t: AppState)
    ensures t.step == SdgScoring
    ensures t.surveyData.selectedSdgs == sdgs
    ensures t.surveyData.(selectedSdgs := s.surveyData.selectedSdgs) == s.surveyData
    ensures t.recommendations == s.recommendations && t.selectedCompany == s.selectedCompany && t.error == s.error
  {
    s.(surveyData := s.surveyData.(selectedSdgs := sdgs), step := SdgScoring)
  }

  /** `handleSdgScoreNext`: records the scores; nothing else of the survey changes. */
  function HandleSdgScoreNext(s: AppState, scores: seq<SdgScore>): (t: AppState)
    ensures t.step == Investment
    ensures t.surveyData.sdgScores == scores
    ensures t.surveyData.(sdgScores := s.surveyData.sdgScores) == s.surveyData
    ensures t.recommendations == s.recommendations && t.selectedCompany == s.selectedCompany && t.error == s.error
  {
    s.(surveyData := s.surveyData.(sdgScores := scores), step := Investment)
  }

  /** `handleSurveyComplete`, up to the request: the answers overwrite the
      three survey fields, the goals and scores stay, the spinner shows and
      any earlier error is cleared. */
  function HandleSurveyComplete(s: AppState, a: InvestmentSurvey.SurveyAnswers): (t: AppState)
    ensures t.step == Loading && t.error.None?
    ensures t.surveyData.selectedSdgs == s.surveyData.selectedSdgs
    ensures t.surveyData.sdgScores == s.surveyData.sdgScores
    ensures t.surveyData.riskPreference == Some(a.riskPreference)
    ensures t.surveyData.investmentExperience == a.investmentExperience
    ensures t.surveyData.investmentPeriod == Some(a.investmentPeriod)
    ensures t.recommendations == s.recommendations && t.selectedCompany == s.selectedCompany
  {
    var merged := s.surveyData.(
      riskPreference := Some(a.riskPreference),
      investmentExperience := a.investmentExperience,
      investmentPeriod := Some(a.investmentPeriod));
    s.(surveyData := merged, step := Loading, error := None)
  }

  /** `handleSurveyComplete`, once the service answers: an answer holding a
      company list opens the dashboard with exactly that list; anything else
      goes back to the survey with an error message. */
  function HandleRecommendations(s: AppState, result: Option<ModelOutput>): (t: AppState)
    ensures (result.Some? && result.value.recommendedCompanies.Some?) ==>
              t.step == Dashboard && t.recommendations == result.value.recommendedCompanies.value
              && t.error == s.error
    ensures !(result.Some? && result.value.recommendedCompanies.Some?) ==>
              t.step == Investment && t.error.Some? && t.recommendations == s.recommendations
    ensures t.surveyData == s.surveyData && t.selectedCompany == s.selectedCompany
  {
    if result.Some? && result.value.recommendedCompanies.Some? then
      s.(recommendations := result.value.recommendedCompanies.value, step := Dashboard)
    else
      s.(error := Some(ErrorMessage), step := Investment)
  }

  /** `handleSelectCompany` */
  function HandleSelectCompany(s: AppState, c: CompanyRecommendation): (t: AppState)
    ensures t.step == VideoIntro && t.selectedCompany == Some(c)
    ensures t.surveyData == s.surveyData && t.recommendations == s.recommendations && t.error == s.error
  {
    s.(selectedCompany := Some(c), step := VideoIntro)
  }

  /** `handleVideoComplete`: whatever the current step, the detail page. */
  function HandleVideoComplete(s: AppState): (t: AppState)
    ensures t.step == Detail && t.selectedCompany == s.selectedCompany
    ensures t.surveyData == s.surveyData && t.recommendations == s.recommendations && t.error == s.error
  {
    s.(step := Detail)
  }

  /** `handleBackToDashboard` */
  function HandleBackToDashboard(s: AppState): (t: AppState)
    ensures t.step == Dashboard && t.selectedCompany.None?
    ensures t.recommendations == s.recommendations && t.surveyData == s.surveyData && t.error == s.error
  {
    s.(selectedCompany := None, step := Dashboard)
  }

  /** `handleRestart`: back to the start with nothing remembered. */
  function HandleRestart(s: AppState): (t: AppState)
    ensures t.step == Start
    ensures t.surveyData == SurveyData([], [], None, [], None)
    ensures t.recommendations == [] && t.selectedCompany.None? && t.error.None?
  {
    Initial
  }

  /** Restarting forgets the prior state entirely, so restarting twice is
      the same as restarting once. */
  lemma RestartIdempotent(s: AppState, u: AppState)
    ensures HandleRestart(s) == HandleRestart(u)
    ensures HandleRestart(HandleRestart(s)) == HandleRestart(s)
  {
  }

  /** What the flow should look like in every reachable state: a company is
      selected exactly on the video and detail steps (and it is one of the
      listed companies), and an error is only ever shown on the survey. */
  predicate Inv(s: AppState)
  {
    && (s.selectedCompany.Some? <==> s.step == VideoIntro || s.step == Detail)
    && (s.selectedCompany.Some? ==> s.selectedCompany.value in s.recommendations)
    && (s.error.Some? ==> s.step == Investment)
  }

  /** The application state together with the asynchronous work still
      running: video generations and recommendation calls. The video screen
      starts a generation when it opens; it keeps running after the screen is
      left, and when it ends without a video it still calls the completion
      handler (components/CompanyIntroVideo.tsx). Submitting the survey
      starts a recommendation call, whose answer is applied whenever it
      arrives (App.tsx:51-62). */
  datatype Machine = Machine(app: AppState, pendingVideos: nat, pendingCalls: nat)

  const Boot := Machine(Initial, 0, 0)

  /** The user's own events, as opposed to the end of asynchronous work. */
  predicate UserEvent(e: Event)
  {
    !e.VideoSettled? && !e.RecommendationsArrived?
  }

  /** The user actions and the asynchronous answers the flow reacts to. */
  datatype Event =
    | StartClicked
    | SdgSelectNext(sdgs: seq<Sdg>)
    | SdgScoreNext(scores: seq<SdgScore>)
    | SurveyCompleted(answers: InvestmentSurvey.SurveyAnswers)
    | RecommendationsArrived(hasApiKey: bool, call: GeminiService.LlmCall)
    | CompanySelected(company: CompanyRecommendation)
      /** The video screen's skip button, the end of the video, or its
          button to the detail page. */
    | VideoCompleted
      /** A video generation ends; `failed` when it gave no video or threw. */
    | VideoSettled(failed: bool)
    | BackToDashboard
    | Restart

  /** Which events can happen: each step renders one screen and only that
      screen's handlers are wired; the selection button needs exactly three
      goals, a company can only be picked from the listed ones, and the video
      and detail screens render only with a selected company. A generation
      or a recommendation call can end whenever one is running, whatever is
      on screen. */
  predicate Offered(m: Machine, e: Event)
  {
    var s := m.app;
    match e
    case StartClicked => s.step == Start
    case SdgSelectNext(sdgs) => s.step == SdgSelect && SdgSelection.Proceed(sdgs).Some?
    case SdgScoreNext(_) => s.step == SdgScoring
    case SurveyCompleted(_) => s.step == Investment
    case RecommendationsArrived(_, _) => m.pendingCalls > 0
    case CompanySelected(c) => s.step == Dashboard && c in s.recommendations
    case VideoCompleted => s.step == VideoIntro && s.selectedCompany.Some?
    case VideoSettled(_) => m.pendingVideos > 0
    case BackToDashboard => s.step == Detail && s.selectedCompany.Some?
    case Restart => s.step == Dashboard
  }

  /** One step of the program as written: opening the video screen starts a
      generation, and a failed generation calls `handleVideoComplete` on
      whatever step the application has reached by then; submitting the
      survey starts a call, and its answer is applied on whatever step the
      application has reached. Every user event keeps the invariant, and so
      does an answer arriving while no company is selected and no error is
      shown. */
  function NextAsWritten(m: Machine, e: Event): (t: Machine)
    requires Offered(m, e)
    ensures UserEvent(e) && Inv(m.app) ==> Inv(t.app)
    ensures e.RecommendationsArrived? && Inv(m.app) && m.app.selectedCompany.None? && m.app.error.None? ==> Inv(t.app)
    ensures e.CompanySelected? ==> t.pendingVideos == m.pendingVideos + 1
    ensures e.VideoSettled? ==> t.pendingVideos == m.pendingVideos - 1
    ensures e.VideoSettled? && e.failed ==> t.app.step == Detail && t.app.selectedCompany == m.app.selectedCompany
    ensures e.SurveyCompleted? ==> t.pendingCalls == m.pendingCalls + 1
    ensures e.RecommendationsArrived? ==>
              && t.pendingCalls == m.pendingCalls - 1
              && (t.app.step == Dashboard || t.app.step == Investment)
              && t.app.selectedCompany == m.app.selectedCompany
    ensures !e.SurveyCompleted? && !e.RecommendationsArrived? ==> t.pendingCalls == m.pendingCalls
  {
    if UserEvent(e) then UserStep(m, e) else AsyncStep(m, e)
  }

  /** The program's step on a user event: the screen's handler, plus the
      call or generation that submitting or picking starts. */
  function UserStep(m: Machine, e: Event): (t: Machine)
    requires Offered(m, e) && UserEvent(e)
    ensures Inv(m.app) ==> Inv(t.app)
    ensures t.pendingVideos == if e.CompanySelected? then m.pendingVideos + 1 else m.pendingVideos
    ensures t.pendingCalls == if e.SurveyCompleted? then m.pendingCalls + 1 else m.pendingCalls
  {
    match e
    case StartClicked => m.(app := HandleStart(m.app))
    case SdgSelectNext(sdgs) => m.(app := HandleSdgSelectNext(m.app, sdgs))
    case SdgScoreNext(scores) => m.(app := HandleSdgScoreNext(m.app, scores))
    case SurveyCompleted(a) =>
      m.(app := HandleSurveyComplete(m.app, a), pendingCalls := m.pendingCalls + 1)
    case CompanySelected(c) => m.(app := HandleSelectCompany(m.app, c), pendingVideos := m.pendingVideos + 1)
    case VideoCompleted => m.(app := HandleVideoComplete(m.app))
    case BackToDashboard => m.(app := HandleBackToDashboard(m.app))
    case Restart => m.(app := HandleRestart(m.app))
  }

  /** The program's step when asynchronous work ends, on whatever step the
      application shows: a failed generation calls `handleVideoComplete`, an
      answer calls the rest of `handleSurveyComplete`. */
  function AsyncStep(m: Machine, e: Event): (t: Machine)
    requires Offered(m, e) && !UserEvent(e)
    ensures e.RecommendationsArrived? && Inv(m.app) && m.app.selectedCompany.None? && m.app.error.None? ==> Inv(t.app)
    ensures e.VideoSettled? ==> t.pendingVideos == m.pendingVideos - 1 && t.pendingCalls == m.pendingCalls
    ensures e.VideoSettled? && e.failed ==> t.app.step == Detail && t.app.selectedCompany == m.app.selectedCompany
    ensures e.RecommendationsArrived? ==>
              && t.pendingCalls == m.pendingCalls - 1
              && (t.app.step == Dashboard || t.app.step == Investment)
              && t.app.selectedCompany == m.app.selectedCompany
  {
    match e
    case RecommendationsArrived(hasApiKey, call) =>
      m.(app := HandleRecommendations(m.app, GeminiService.GetCompanyRecommendations(hasApiKey, call)),
         pendingCalls := m.pendingCalls - 1)
    case VideoSettled(failed) =>
      m.(app := if failed then HandleVideoComplete(m.app) else m.app, pendingVideos := m.pendingVideos - 1)
  }

  /** An asynchronous result that arrives after its screen was left. */
  predicate Stale(m: Machine, e: Event)
  {
    || (e.VideoSettled? && m.app.step != VideoIntro)
    || (e.RecommendationsArrived? && m.app.step != Loading)
  }

  /** One step of the flow as intended: the end of a generation only takes
      effect while the video screen is showing, and an answer only while the
      loading screen is; either is dropped once the user has moved on.
      Otherwise the step is the program's own. The intended flow keeps a
      call running exactly while the loading screen shows, so it never
      drops an answer (`ReachableCallOnlyWhileLoading`). */
  function Next(m: Machine, e: Event): (t: Machine)
    requires Offered(m, e)
    ensures Inv(m.app) ==> Inv(t.app)
    ensures CallMatchesStep(m) ==> CallMatchesStep(t)
    ensures !Stale(m, e) ==> t == NextAsWritten(m, e)
    ensures e.VideoSettled? && m.app.step != VideoIntro ==>
              t == m.(pendingVideos := m.pendingVideos - 1)
    ensures e.RecommendationsArrived? && m.app.step != Loading ==>
              t == m.(pendingCalls := m.pendingCalls - 1)
  {
    if e.VideoSettled? && m.app.step != VideoIntro then m.(pendingVideos := m.pendingVideos - 1)
    else if e.RecommendationsArrived? && m.app.step != Loading then m.(pendingCalls := m.pendingCalls - 1)
    else NextAsWritten(m, e)
  }

  /** A recommendation call is running exactly while the loading screen
      shows, and never more than one. */
  predicate CallMatchesStep(m: Machine)
  {
    && (m.pendingCalls > 0 <==> m.app.step == Loading)
    && m.pendingCalls <= 1
  }

  /** Replays events from left to right, with the intended steps when
      `guarded` and the program's own otherwise; `None` as soon as an event
      cannot happen at that point. */
  function Run(m: Machine, es: seq<Event>, guarded: bool): Option<Machine>
    decreases |es|
  {
    if |es| == 0 then Some(m)
    else if !Offered(m, es[0]) then None
    else Run(if guarded then Next(m, es[0]) else NextAsWritten(m, es[0]), es[1..], guarded)
  }

  /** Replaying two event lists is replaying the first, then the second. */
  lemma {:induction false} RunConcat(m: Machine, a: seq<Event>, b: seq<Event>, guarded: bool)
    ensures Run(m, a + b, guarded)
            == if Run(m, a, guarded).Some? then Run(Run(m, a, guarded).value, b, guarded) else None
    decreases |a|
  {
    if |a| > 0 {
      assert (a + b)[0] == a[0] && (a + b)[1..] == a[1..] + b;
      if Offered(m, a[0]) {
        RunConcat(if guarded then Next(m, a[0]) else NextAsWritten(m, a[0]), a[1..], b, guarded);
      }
    } else {
      assert a + b == b;
    }
  }

  /** Every intended run from a state with the invariant ends in a state
      with it. */
  lemma {:induction false} RunKeepsInv(m: Machine, es: seq<Event>)
    requires Inv(m.app)
    ensures Run(m, es, true).Some? ==> Inv(Run(m, es, true).value.app)
    decreases |es|
  {
    if |es| > 0 && Offered(m, es[0]) {
      RunKeepsInv(Next(m, es[0]), es[1..]);
    }
  }

  /** Every state the intended flow reaches from the start satisfies the
      invariant; in particular the video and detail screens always have a
      company to show. */
  lemma ReachableHasInv(es: seq<Event>)
    ensures Run(Boot, es, true).Some? ==> Inv(Run(Boot, es, true).value.app)
  {
    RunKeepsInv(Boot, es);
  }

  /** Every intended run keeps a running call tied to the loading screen. */
  lemma {:induction false} RunKeepsCallMatch(m: Machine, es: seq<Event>)
    requires CallMatchesStep(m)
    ensures Run(m, es, true).Some? ==> CallMatchesStep(Run(m, es, true).value)
    decreases |es|
  {
    if |es| > 0 && Offered(m, es[0]) {
      RunKeepsCallMatch(Next(m, es[0]), es[1..]);
    }
  }

  /** In the intended flow a recommendation call is running exactly while
      the loading screen shows, so an answer always finds that screen and
      none is ever dropped. */
  lemma ReachableCallOnlyWhileLoading(es: seq<Event>, hasApiKey: bool, call: GeminiService.LlmCall)
    ensures Run(Boot, es, true).Some? ==> CallMatchesStep(Run(Boot, es, true).value)
    ensures Run(Boot, es, true).Some? && Offered(Run(Boot, es, true).value, RecommendationsArrived(hasApiKey, call)) ==>
              Run(Boot, es, true).value.app.step == Loading
  {
    RunKeepsCallMatch(Boot, es);
  }

  /** The forward flow: start, three goals, their scores, then the survey. */
  lemma ForwardFlow(sdgs: seq<Sdg>, scores: seq<SdgScore>, guarded: bool)
    requires |sdgs| == SdgSelection.MaxSelected
    ensures Run(Boot, [StartClicked, SdgSelectNext(sdgs), SdgScoreNext(scores)], guarded)
            == Some(Machine(AppState(Investment, SurveyData(sdgs, scores, None, [], None), [], None, None), 0, 0))
  {
    var es := [StartClicked, SdgSelectNext(sdgs), SdgScoreNext(scores)];
    var m1 := Boot.(app := HandleStart(Initial));
    assert Run(Boot, es, guarded) == Run(m1, es[1..], guarded);
    var m2 := m1.(app := HandleSdgSelectNext(m1.app, sdgs));
    assert Run(m1, es[1..], guarded) == Run(m2, es[2..], guarded);
    var m3 := m2.(app := HandleSdgScoreNext(m2.app, scores));
    assert Run(m2, es[2..], guarded) == Run(m3, es[3..], guarded);
    assert es[3..] == [];
  }

  /** Without an API key, or when the call fails, finishing the survey
      always lands on the dashboard with the three fallback companies. */
  lemma FallbackReachesDashboard(m: Machine, hasApiKey: bool, call: GeminiService.LlmCall)
    requires m.app.step == Loading && m.pendingCalls > 0
    requires !hasApiKey || call.CallFailed?
    ensures Next(m, RecommendationsArrived(hasApiKey, call)).app.step == Dashboard
    ensures Next(m, RecommendationsArrived(hasApiKey, call)).app.recommendations
            == GeminiService.MockResponse().recommendedCompanies.value
  {
    GeminiService.FallbackAlwaysLists(hasApiKey, call);
  }

  /** Picking a company, watching the video and going back returns to
      exactly the dashboard state the user left; only the generation the
      video screen started is still running. */
  lemma CompanyRoundTrip(m: Machine, c: CompanyRecommendation)
    requires Inv(m.app) && m.app.step == Dashboard && c in m.app.recommendations
    ensures Next(Next(Next(m, CompanySelected(c)), VideoCompleted), BackToDashboard)
            == m.(pendingVideos := m.pendingVideos + 1)
  {
  }

  /** The events behind the dead end: pick a company, skip its video, go
      back to the dashboard, and then the generation fails. */
  function LateFailure(c: CompanyRecommendation): seq<Event>
  {
    [CompanySelected(c), VideoCompleted, BackToDashboard, VideoSettled(true)]
  }

  /** As written, a generation failing after the user went back moves the
      dashboard to the detail step with no company: App.tsx then renders an
      empty element and offers no handler at all. */
  lemma LateFailureStrandsDetail(m: Machine, c: CompanyRecommendation)
    requires Inv(m.app) && m.app.step == Dashboard && c in m.app.recommendations
    ensures Run(m, LateFailure(c), false) == Some(m.(app := m.app.(step := Detail)))
    ensures !Inv(Run(m, LateFailure(c), false).value.app)
  {
    var es := LateFailure(c);
    var m1 := NextAsWritten(m, es[0]);
    assert Run(m, es, false) == Run(m1, es[1..], false);
    var m2 := NextAsWritten(m1, es[1]);
    assert Run(m1, es[1..], false) == Run(m2, es[2..], false);
    var m3 := NextAsWritten(m2, es[2]);
    assert Run(m2, es[2..], false) == Run(m3, es[3..], false);
    var m4 := NextAsWritten(m3, es[3]);
    assert Run(m3, es[3..], false) == Run(m4, es[4..], false);
    assert es[4..] == [];
  }

  /** As written, a generation that fails while the loading screen waits for
      its answer shows the detail step with no company, but only until the
      answer arrives: the answer then opens the dashboard or the survey
      exactly as it would have without the failure, and the invariant is
      back. */
  lemma LateFailureWhileLoadingRecovers(m: Machine, hasApiKey: bool, call: GeminiService.LlmCall)
    requires Inv(m.app) && m.app.step == Loading && m.pendingVideos > 0 && m.pendingCalls > 0
    ensures var d := NextAsWritten(m, VideoSettled(true));
            d.app.step == Detail && d.app.selectedCompany.None? && Offered(d, RecommendationsArrived(hasApiKey, call))
    ensures Run(m, [VideoSettled(true), RecommendationsArrived(hasApiKey, call)], false).Some?
    ensures var r := Run(m, [VideoSettled(true), RecommendationsArrived(hasApiKey, call)], false).value;
            && r.app == NextAsWritten(m, RecommendationsArrived(hasApiKey, call)).app
            && (r.app.step == Dashboard || r.app.step == Investment)
            && Inv(r.app)
  {
    var es := [VideoSettled(true), RecommendationsArrived(hasApiKey, call)];
    var m1 := NextAsWritten(m, es[0]);
    assert Run(m, es, false) == Run(m1, es[1..], false);
    var m2 := NextAsWritten(m1, es[1]);
    assert Run(m1, es[1..], false) == Run(m2, es[2..], false);
    assert es[2..] == [];
  }

  /** The detail step with no company and nothing left running is a dead
      end: no event can happen there. */
  lemma StrandedOffersNothing(m: Machine, e: Event)
    requires m.app.step == Detail && m.app.selectedCompany.None?
    requires m.pendingVideos == 0 && m.pendingCalls == 0
    ensures !Offered(m, e)
  {
  }

  /** With the intended guard the same events lead back to the dashboard
      the user left. */
  lemma LateFailureIgnored(m: Machine, c: CompanyRecommendation)
    requires Inv(m.app) && m.app.step == Dashboard && c in m.app.recommendations
    ensures Run(m, LateFailure(c), true).Some? && Run(m, LateFailure(c), true).value == m
  {
    var es := LateFailure(c);
    var m1 := Next(m, es[0]);
    assert Run(m, es, true) == Run(m1, es[1..], true);
    var m2 := Next(m1, es[1]);
    assert Run(m1, es[1..], true) == Run(m2, es[2..], true);
    var m3 := Next(m2, es[2]);
    assert Run(m2, es[2..], true) == Run(m3, es[3..], true);
    var m4 := Next(m3, es[3]);
    assert Run(m3, es[3..], true) == Run(m4, es[4..], true);
    assert es[4..] == [];
  }

  /** The shortest way to the dashboard: start, three goals, their scores,
      the survey, and a recommendation call without a key. */
  function ToDashboard(sdgs: seq<Sdg>, scores: seq<SdgScore>, a: InvestmentSurvey.SurveyAnswers): seq<Event>
  {
    [StartClicked, SdgSelectNext(sdgs), SdgScoreNext(scores), SurveyCompleted(a),
     RecommendationsArrived(false, GeminiService.CallFailed)]
  }

  lemma FallbackDashboardReachable(sdgs: seq<Sdg>, scores: seq<SdgScore>, a: InvestmentSurvey.SurveyAnswers, guarded: bool)
    requires |sdgs| == SdgSelection.MaxSelected
    ensures Run(Boot, ToDashboard(sdgs, scores, a), guarded).Some?
    ensures var m := Run(Boot, ToDashboard(sdgs, scores, a), guarded).value;
            && m.app.step == Dashboard && Inv(m.app) && m.pendingVideos == 0 && m.pendingCalls == 0
            && m.app.recommendations == GeminiService.MockResponse().recommendedCompanies.value
  {
    var front := [StartClicked, SdgSelectNext(sdgs), SdgScoreNext(scores)];
    var back := [SurveyCompleted(a), RecommendationsArrived(false, GeminiService.CallFailed)];
    assert ToDashboard(sdgs, scores, a) == front + back;
    RunConcat(Boot, front, back, guarded);
    ForwardFlow(sdgs, scores, guarded);
    SubmitWithoutKey(Run(Boot, front, guarded).value, a, guarded);
  }

  /** From the survey with nothing running, submitting without a key opens
      the fallback dashboard. */
  lemma SubmitWithoutKey(m0: Machine, a: InvestmentSurvey.SurveyAnswers, guarded: bool)
    requires m0.app.step == Investment && Inv(m0.app) && m0.pendingVideos == 0 && m0.pendingCalls == 0
    ensures var back := [SurveyCompleted(a), RecommendationsArrived(false, GeminiService.CallFailed)];
            && Run(m0, back, guarded).Some?
            && var m := Run(m0, back, guarded).value;
            && m.app.step == Dashboard && Inv(m.app) && m.pendingVideos == 0 && m.pendingCalls == 0
            && m.app.recommendations == GeminiService.MockResponse().recommendedCompanies.value
  {
    var back := [SurveyCompleted(a), RecommendationsArrived(false, GeminiService.CallFailed)];
    var m1 := m0.(app := HandleSurveyComplete(m0.app, a), pendingCalls := 1);
    assert Run(m0, back, guarded) == Run(m1, back[1..], guarded);
    GeminiService.FallbackAlwaysLists(false, GeminiService.CallFailed);
    var m2 := m1.(app := HandleRecommendations(m1.app, GeminiService.GetCompanyRecommendations(false, GeminiService.CallFailed)),
                  pendingCalls := 0);
    assert Run(m1, back[1..], guarded) == Run(m2, back[2..], guarded);
    assert back[2..] == [];
  }

  /** The program as written can strand the user: from the start, picking the
      first fallback company, skipping its video, going back and then
      having the generation fail ends on the detail step with no company and
      nothing left running, where no event can happen any more. */
  lemma DeadEndReachable(sdgs: seq<Sdg>, scores: seq<SdgScore>, a: InvestmentSurvey.SurveyAnswers)
    requires |sdgs| == SdgSelection.MaxSelected
    ensures var es := ToDashboard(sdgs, scores, a) + LateFailure(GeminiService.MockResponse().recommendedCompanies.value[0]);
            && Run(Boot, es, false).Some?
            && Run(Boot, es, false).value.app.step == Detail
            && Run(Boot, es, false).value.app.selectedCompany.None?
            && Run(Boot, es, false).value.pendingVideos == 0
            && Run(Boot, es, false).value.pendingCalls == 0
            && forall e :: !Offered(Run(Boot, es, false).value, e)
  {
    var c := GeminiService.MockResponse().recommendedCompanies.value[0];
    FallbackDashboardReachable(sdgs, scores, a, false);
    var m := Run(Boot, ToDashboard(sdgs, scores, a), false).value;
    assert c in m.app.recommendations;
    RunConcat(Boot, ToDashboard(sdgs, scores, a), LateFailure(c), false);
    LateFailureStrandsDetail(m, c);
    var end := Run(Boot, ToDashboard(sdgs, scores, a) + LateFailure(c), false).value;
    forall e: Event ensures !Offered(end, e) {
      StrandedOffersNothing(end, e);
    }
  }
}

=== FILE: company_detail.dfy ===
/** The promotional-text splitter of the company page
    (components/CompanyDetail.tsx, `formatSnsText`). */
module CompanyDetail {
  import opened Types
  import opened JsText

  /** Position `i` matches `/(\s|^)#/`: a `#` that opens the text, or a
      whitespace character followed by `#` (the match then starts at the
      whitespace). */
  predicate MatchesAt(t: string, i: int)
  {
    || (i == 0 && |t| > 0 && t[0] == '#')
    || (0 <= i && i + 1 < |t| && IsJsSpace(t[i]) && t[i + 1] == '#')
  }

  /** The regular-expression search from position `from` on: the first
      matching position, if any. */
  function FirstMatch(t: string, from: nat): (r: Option<nat>)
    ensures r.Some? ==> from <= r.value < |t| && MatchesAt(t, r.value)
    ensures forall j :: from <= j && (r.None? || j < r.value) ==> !MatchesAt(t, j)
    decreases |t| - from
  {
    if from >= |t| then None
    else if MatchesAt(t, from) then Some(from)
    else FirstMatch(t, from + 1)
  }

  datatype SnsText = SnsText(main: string, tags: string)

  /** The text with a missing value read as empty. */
  function TextOf(text: Option<string>): string
  {
    if text.Some? then text.value else ""
  }

  /** `formatSnsText`: empty or missing text gives two empty parts; text
      without a hashtag stays whole as the body; otherwise the text is cut
      where the first hashtag match starts and both halves are trimmed. */
  function FormatSnsText(text: Option<string>): (r: SnsText)
    ensures TextOf(text) == "" ==> r == SnsText("", "")
    ensures TextOf(text) != "" && FirstMatch(TextOf(text), 0).None? ==> r == SnsText(TextOf(text), "")
    ensures TextOf(text) != "" && FirstMatch(TextOf(text), 0).Some? ==>
              var i := FirstMatch(TextOf(text), 0).value;
              r.main == Trim(TextOf(text)[..i]) && r.tags == Trim(TextOf(text)[i..])
  {
    if text.None? || text.value == "" then SnsText("", "")
    else
      var t := text.value;
      match FirstMatch(t, 0)
      case None => SnsText(t, "")
      case Some(i) => SnsText(Trim(t[..i]), Trim(t[i..]))
  }

  /** When the text is split, the tag line is non-empty and starts with `#`. */
  lemma TagsStartWithHash(t: string)
    requires t != "" && FirstMatch(t, 0).Some?
    ensures FormatSnsText(Some(t)).tags != ""
    ensures FormatSnsText(Some(t)).tags[0] == '#'
  {
    var i := FirstMatch(t, 0).value;
    var s := t[i..];
    // the suffix opens with `#` or with one whitespace character and then `#`
    var h := if s[0] == '#' then 0 else 1;
    assert s[h] == '#' && !IsJsSpace(s[h]);
    assert forall k :: 0 <= k < h ==> IsJsSpace(s[k]);
    var lo := LeadingSpaces(s);
    assert lo == h;
    assert LeadingSpaces(s) < TrimHi(s);
  }

  /** Splitting loses nothing but whitespace: the text is the body with
      whitespace around it, followed by the tag line with whitespace around
      it. */
  lemma SplitLosesOnlyWhitespace(text: Option<string>)
    ensures var t, r := TextOf(text), FormatSnsText(text);
            exists cut :: 0 <= cut <= |t| && Padded(t[..cut], r.main) && Padded(t[cut..], r.tags)
  {
    var t, r := TextOf(text), FormatSnsText(text);
    assert Padded("", "") by { assert ""[0..0] == ""; }
    if t == "" {
      assert t[..0] == "" && t[0..] == "";
    } else if FirstMatch(t, 0).None? {
      assert t[..|t|] == t && t[|t|..] == "";
      assert Padded(t, t) by { assert t[0..|t|] == t && t[..0] == "" && t[|t|..] == ""; }
    } else {
      var i := FirstMatch(t, 0).value;
      TrimIsPadding(t[..i]);
      TrimIsPadding(t[i..]);
    }
  }

  /** A match inside a slice is a match of the whole text, unless it is
      the slice's own opening `#`. */
  lemma MatchInSlice(t: string, lo: int, hi: int, j: int)
    requires 0 <= lo <= hi <= |t|
    requires MatchesAt(t[lo..hi], j)
    ensures 0 <= j && lo + j < hi
    ensures (j == 0 && t[lo] == '#') || MatchesAt(t, lo + j)
  {
    var m := t[lo..hi];
    if !(j == 0 && |m| > 0 && m[0] == '#') {
      assert m[j] == t[lo + j] && m[j + 1] == t[lo + j + 1];
    }
  }

  /** The body never holds a hashtag that opens it or follows whitespace. */
  lemma MainHasNoHashtag(text: Option<string>)
    ensures forall j :: !MatchesAt(FormatSnsText(text).main, j)
  {
    var t := TextOf(text);
    if t != "" && FirstMatch(t, 0).Some? {
      var i := FirstMatch(t, 0).value;
      var s := t[..i];
      var lo, hi := LeadingSpaces(s), TrimHi(s);
      assert s[lo..hi] == t[lo..hi];
      var m := FormatSnsText(text).main;
      assert m == t[lo..hi];
      forall j | MatchesAt(m, j)
        ensures false
      {
        MatchInSlice(t, lo, hi, j);
        if !MatchesAt(t, lo + j) && lo > 0 {
          assert IsJsSpace(s[lo - 1]) && s[lo - 1] == t[lo - 1];
          assert MatchesAt(t, lo - 1);
        }
      }
    }
  }

  /** Text that opens with `#` is all tags: the body is empty and the tag
      line is the trimmed text. */
  lemma LeadingHashIsAllTags(t: string)
    requires |t| > 0 && t[0] == '#'
    ensures FormatSnsText(Some(t)) == SnsText("", Trim(t))
  {
    assert MatchesAt(t, 0);
    assert t[..0] == "" && t[0..] == t;
  }

  /** Text with no hashtag match comes back untouched, untrimmed. */
  lemma NoHashtagKeepsText(t: string)
    requires forall j :: !MatchesAt(t, j)
    ensures FormatSnsText(Some(t)) == SnsText(t, "")
  {
  }
}

=== FILE: constants.dfy ===
/** The reference table of the seventeen goals (constants.tsx) and the
    lookups the screens perform on it with `Array.prototype.find`. */
module Constants {
  import opened Types

  const GoalCount := 17

  /** "G" followed by the id written with two decimal digits. */
  function GoalCode(id: int): (code: string)
    requires 0 <= id <= 99
    ensures |code| == 3 && code[0] == 'G'
    ensures '0' <= code[1] <= '9' && '0' <= code[2] <= '9'
    ensures (code[1] as int - '0' as int) * 10 + (code[2] as int - '0' as int) == id
  {
    ['G', ('0' as int + id / 10) as char, ('0' as int + id % 10) as char]
  }

  const SdgList: seq<Sdg> := [
    Sdg(1, "G01", "빈곤 종식", "#E5243B"),
    Sdg(2, "G02", "기아 종식", "#DDA63A"),
    Sdg(3, "G03", "건강과 웰빙", "#4C9F38"),
    Sdg(4, "G04", "양질의 교육", "#C5192D"),
    Sdg(5, "G05", "성평등", "#FF3A21"),
    Sdg(6, "G06", "깨끗한 물과 위생", "#26BDE2"),
    Sdg(7, "G07", "깨끗한 에너지", "#FCC30B"),
    Sdg(8, "G08", "좋은 일자리와 경제 성장", "#A21942"),
    Sdg(9, "G09", "산업, 혁신, 사회기반시설", "#FD6925"),
    Sdg(10, "G10", "불평등 감소", "#DD1367"),
    Sdg(11, "G11", "지속가능한 도시와 공동체", "#FD9D24"),
    Sdg(12, "G12", "책임감 있는 소비와 생산", "#BF8B2E"),
    Sdg(13, "G13", "기후변화 대응", "#3F7E44"),
    Sdg(14, "G14", "해양 생태계 보존", "#0A97D9"),
    Sdg(15, "G15", "육상 생태계 보존", "#56C02B"),
    Sdg(16, "G16", "평화, 정의, 제도", "#00689D"),
    Sdg(17, "G17", "지구촌 협력", "#19486A")
  ]

  /** The table has one entry per goal, in id order, each carrying its code. */
  lemma SdgListShape()
    ensures |SdgList| == GoalCount
    ensures forall k :: 0 <= k < |SdgList| ==> SdgList[k].id == k + 1
    ensures forall k :: 0 <= k < |SdgList| ==> SdgList[k].code == GoalCode(SdgList[k].id)
  {
  }

  /** Two ids in range never share a code. */
  lemma GoalCodeInjective(a: int, b: int)
    requires 0 <= a <= 99 && 0 <= b <= 99
    ensures GoalCode(a) == GoalCode(b) <==> a == b
  {
    if GoalCode(a) == GoalCode(b) {
      assert GoalCode(a)[1] == GoalCode(b)[1] && GoalCode(a)[2] == GoalCode(b)[2];
    }
  }

  predicate DistinctIds(sdgs: seq<Sdg>)
  {
    forall i, j :: 0 <= i < j < |sdgs| ==> sdgs[i].id != sdgs[j].id
  }

  predicate DistinctCodes(sdgs: seq<Sdg>)
  {
    forall i, j :: 0 <= i < j < |sdgs| ==> sdgs[i].code != sdgs[j].code
  }

  lemma SdgListDistinct()
    ensures DistinctIds(SdgList) && DistinctCodes(SdgList)
  {
    SdgListShape();
    forall i, j | 0 <= i < j < |SdgList|
      ensures SdgList[i].code != SdgList[j].code
    {
      GoalCodeInjective(i + 1, j + 1);
    }
  }

  /** What a lookup compares: the id (as the service does when it names the
      scored goals) or the code (as the dashboard does for a top goal). */
  datatype Key = ById(id: int) | ByCode(code: string)

  predicate Matches(s: Sdg, key: Key)
  {
    match key
    case ById(id) => s.id == id
    case ByCode(code) => s.code == code
  }

  /** `sdgs.find(s => s.id === id)` and `sdgs.find(s => s.code === code)`:
      the first entry that matches, if any. */
  function Find(sdgs: seq<Sdg>, key: Key): (r: Option<Sdg>)
    ensures r.Some? <==> exists k :: 0 <= k < |sdgs| && Matches(sdgs[k], key)
    ensures r.Some? ==> exists k :: 0 <= k < |sdgs| && sdgs[k] == r.value && Matches(r.value, key)
                          && forall j :: 0 <= j < k ==> !Matches(sdgs[j], key)
  {
    if |sdgs| == 0 then None
    else if Matches(sdgs[0], key) then Some(sdgs[0])
    else
      var r := Find(sdgs[1..], key);
      if r.Some? then
        ghost var k :| 0 <= k < |sdgs[1..]| && sdgs[1..][k] == r.value && Matches(r.value, key)
                      && forall j :: 0 <= j < k ==> !Matches(sdgs[1..][j], key);
        assert sdgs[k + 1] == r.value;
        r
      else r
  }

  /** When a single entry matches, the lookup finds it. */
  lemma FindOnlyMatch(sdgs: seq<Sdg>, k: int, key: Key)
    requires 0 <= k < |sdgs| && Matches(sdgs[k], key)
    requires forall j :: 0 <= j < |sdgs| && j != k ==> !Matches(sdgs[j], key)
    ensures Find(sdgs, key) == Some(sdgs[k])
  {
  }

  /** Looking a goal up by its id or by its code finds the same single row. */
  lemma LookupByIdOrCode(id: int)
    requires 1 <= id <= GoalCount
    ensures SdgList[id - 1].id == id && SdgList[id - 1].code == GoalCode(id)
    ensures Find(SdgList, ById(id)) == Some(SdgList[id - 1])
    ensures Find(SdgList, ByCode(GoalCode(id))) == Some(SdgList[id - 1])
  {
    SdgListShape();
    SdgListDistinct();
    var k := id - 1;
    forall j | 0 <= j < |SdgList| && j != k
      ensures !Matches(SdgList[j], ById(id)) && !Matches(SdgList[j], ByCode(GoalCode(id)))
    {
      if j < k {
        assert SdgList[j].id != SdgList[k].id && SdgList[j].code != SdgList[k].code;
      } else {
        assert SdgList[k].id != SdgList[j].id && SdgList[k].code != SdgList[j].code;
      }
    }
    FindOnlyMatch(SdgList, k, ById(id));
    FindOnlyMatch(SdgList, k, ByCode(GoalCode(id)));
  }

  /** Codes outside G01..G17 match no row. */
  lemma LookupUnknownCode(code: string)
    requires forall id :: 1 <= id <= GoalCount ==> code != GoalCode(id)
    ensures Find(SdgList, ByCode(code)).None?
  {
    SdgListShape();
  }
}

=== FILE: gemini_service.dfy ===
/** The deterministic parts of the recommendation service
    (services/geminiService.ts). The generative calls themselves are foreign:
    their answers are inputs here, and whether an API key is configured is a
    boolean setting. */
module GeminiService {
  import opened Types
  import opened Constants

  /** `riskToFloat`: the risk label as a number on the 0..1 scale quoted in
      the prompt; an unknown label counts as neutral. */
  function RiskToFloat(risk: string): (x: real)
    ensures 0.0 <= x <= 1.0
    ensures risk != RiskLabel(Safe) && risk != RiskLabel(Aggressive) ==> x == 0.5
  {
    if risk == "안전형" then 0.0
    else if risk == "중립형" then 0.5
    else if risk == "공격형" then 1.0
    else 0.5
  }

  /** Safe, neutral and aggressive land at the bottom, middle and top of the
      scale, in strictly rising order. */
  lemma RiskToFloatOrdered()
    ensures RiskToFloat(RiskLabel(Safe)) == 0.0
    ensures RiskToFloat(RiskLabel(Neutral)) == 0.5
    ensures RiskToFloat(RiskLabel(Aggressive)) == 1.0
    ensures RiskToFloat(RiskLabel(Safe)) < RiskToFloat(RiskLabel(Neutral)) < RiskToFloat(RiskLabel(Aggressive))
  {
  }

  /** One element of a JavaScript array: a hole (never written) or a number. */
  datatype Slot = Hole | Val(n: int)

  /** `a[index] = v` on a JavaScript array: an index inside the array
      overwrites, an index at or past its end grows it (leaving holes), a
      negative index names a plain property and leaves the elements alone. */
  function ArrayWrite(a: seq<Slot>, index: int, v: int): (b: seq<Slot>)
    ensures 0 <= index < |a| ==> b == a[index := Val(v)]
    ensures index < 0 ==> b == a
    ensures index >= |a| ==> |b| == index + 1 && b[..|a|] == a && b[index] == Val(v)
                             && forall k :: |a| <= k < index ==> b[k] == Hole
  {
    if index < 0 then a
    else if index < |a| then a[index := Val(v)]
    else a + seq(index - |a|, _ => Hole) + [Val(v)]
  }

  /** Reference meaning of a slot: the score of the LAST entry for that goal. */
  function LastScore(scores: seq<SdgScore>, sdgId: int): (r: Option<int>)
    ensures r.None? <==> forall j :: 0 <= j < |scores| ==> scores[j].sdgId != sdgId
    ensures r.Some? ==> exists j :: 0 <= j < |scores| && scores[j].sdgId == sdgId && scores[j].score == r.value
                          && forall i :: j < i < |scores| ==> scores[i].sdgId != sdgId
  {
    if |scores| == 0 then None
    else
      var n := |scores| - 1;
      if scores[n].sdgId == sdgId then Some(scores[n].score)
      else
        var init := scores[..n];
        assert forall j :: 0 <= j < n ==> init[j] == scores[j];
        var r := LastScore(init, sdgId);
        if r.Some? then
          ghost var j :| 0 <= j < |init| && init[j].sdgId == sdgId && init[j].score == r.value
                         && forall i :: j < i < |init| ==> init[i].sdgId != sdgId;
          assert scores[j] == init[j];
          r
        else r
  }

  function ScoreOrZero(o: Option<int>): int
  {
    match o
    case Some(v) => v
    case None => 0
  }

  const DenseLength := 17

  /** Extending the list by one entry changes only that entry's goal. */
  lemma LastScoreExtend(scores: seq<SdgScore>, i: int, sdgId: int)
    requires 0 <= i < |scores|
    ensures LastScore(scores[..i + 1], sdgId)
            == if scores[i].sdgId == sdgId then Some(scores[i].score) else LastScore(scores[..i], sdgId)
  {
    assert scores[..i + 1][..i] == scores[..i];
  }

  /** The meaning of the build's array after the first `n` entries: at
      least seventeen slots, each of the first seventeen holding the last
      score given so far for its goal, or 0. */
  predicate SlotsAfter(full: seq<Slot>, scores: seq<SdgScore>, n: int)
    requires 0 <= n <= |scores|
  {
    && |full| >= DenseLength
    && forall k :: 0 <= k < DenseLength ==> full[k] == Val(ScoreOrZero(LastScore(scores[..n], k + 1)))
  }

  /** One write of the build moves every slot to its meaning for one more
      entry, and keeps seventeen slots when the id is at most 17. */
  lemma WriteKeepsMeaning(full: seq<Slot>, scores: seq<SdgScore>, i: int)
    requires 0 <= i < |scores|
    requires SlotsAfter(full, scores, i)
    ensures SlotsAfter(ArrayWrite(full, scores[i].sdgId - 1, scores[i].score), scores, i + 1)
    ensures |full| == DenseLength && scores[i].sdgId <= DenseLength ==>
              |ArrayWrite(full, scores[i].sdgId - 1, scores[i].score)| == DenseLength
  {
    var next := ArrayWrite(full, scores[i].sdgId - 1, scores[i].score);
    forall k | 0 <= k < DenseLength
      ensures next[k] == Val(ScoreOrZero(LastScore(scores[..i + 1], k + 1)))
    {
      LastScoreExtend(scores, i, k + 1);
      if scores[i].sdgId - 1 >= |full| {
        assert next[..|full|][k] == full[k];
      }
    }
  }

  /** The `fullSdgScores` build: seventeen zeros, then each entry written at
      slot id-1 in list order. Slot k ends up holding the last score given
      for goal k+1, or 0; the array stays at seventeen slots unless an id
      lies past 17. */
  method BuildFullSdgScores(scores: seq<SdgScore>) returns (full: seq<Slot>)
    ensures |full| >= DenseLength
    ensures forall k :: 0 <= k < DenseLength ==> full[k] == Val(ScoreOrZero(LastScore(scores, k + 1)))
    ensures (forall j :: 0 <= j < |scores| ==> scores[j].sdgId <= DenseLength) ==> |full| == DenseLength
  {
    full := seq(DenseLength, _ => Val(0));
    var i := 0;
    ZerosMeanNothingYet(scores);
    while i < |scores|
      invariant 0 <= i <= |scores|
      invariant SlotsAfter(full, scores, i)
      invariant (forall j :: 0 <= j < i ==> scores[j].sdgId <= DenseLength) ==> |full| == DenseLength
    {
      WriteKeepsMeaning(full, scores, i);
      full := ArrayWrite(full, scores[i].sdgId - 1, scores[i].score);
      i := i + 1;
    }
    assert scores[..i] == scores;
  }

  /** Before any entry is written, seventeen zeros already hold the meaning
      of the empty prefix. */
  lemma ZerosMeanNothingYet(scores: seq<SdgScore>)
    ensures SlotsAfter(seq(DenseLength, _ => Val(0)), scores, 0)
  {
    assert scores[..0] == [];
  }

  /** The dense vector is not seventeen long for every input: a goal id of 18
      grows it to eighteen slots. */
  lemma DenseVectorGrowsPastSeventeen()
    ensures |ArrayWrite(seq(DenseLength, _ => Val(0)), 18 - 1, 4)| == 18
  {
  }

  /** Every alignment vector of the fallback answer rates all seventeen goals 1..5. */
  predicate AlignmentInRange(alignment: seq<real>)
  {
    |alignment| == DenseLength && forall k :: 0 <= k < |alignment| ==> 1.0 <= alignment[k] <= 5.0
  }

  /** The fallback companies' explanations, verbatim. */
  const MockExplanation1: string := "클린에너지 솔루션은 태양광 및 풍력 발전 기술에 대한 혁신적인 연구와 상용화에 앞장서고 있습니다. 특히, 에너지 효율을 극대화하는 스마트 그리드 시스템을 개발하여 지속 가능한 에너지 공급에 크게 기여하고 있습니다. 이는 사용자가 중요하게 생각하는 '깨끗한 에너지' 가치와 매우 높은 부합도를 보입니다."
  const MockExplanation2: string := "스마트팜 코리아는 AI와 IoT 기술을 활용하여 농업 생산성을 획기적으로 개선하고 있습니다. 기후 변화에 대응하고 식량 안보에 기여하는 이들의 기술은 '기아 종식'이라는 인류 공통의 목표에 부합하며, 사용자의 가치관과도 일치합니다."
  const MockExplanation3: string := "에코 플라스틱은 폐플라스틱을 100% 재활용하여 새로운 제품을 만드는 혁신적인 기술을 보유하고 있습니다. 순환 경제를 구축하고 해양 오염을 줄이는 데 기여하며, '책임감 있는 소비와 생산'이라는 가치를 실현하는 대표적인 기업입니다."

  /** The fixed answer used when there is no key or the call fails. */
  function MockResponse(): (out: ModelOutput)
    ensures out.recommendedCompanies.Some? && |out.recommendedCompanies.value| == 3
    ensures forall c :: c in out.recommendedCompanies.value ==> AlignmentInRange(c.sdgAlignment)
    ensures forall c :: c in out.recommendedCompanies.value ==>
              c.investmentReport.None? && c.snsPromotion.None? && c.imageReferenceSentence.None?
    ensures var cs := out.recommendedCompanies.value;
            cs[0].matchScore > cs[1].matchScore > cs[2].matchScore
  {
    ModelOutput(Some([
      CompanyRecommendation("클린에너지 솔루션", "CES001", 92.5, "G07",
        MockExplanation1,
        [2.0, 1.0, 3.0, 2.0, 1.0, 4.0, 5.0, 4.0, 5.0, 2.0, 4.0, 5.0, 4.0, 1.0, 3.0, 2.0, 4.0],
        None, None, None),
      CompanyRecommendation("스마트팜 코리아", "SFK002", 88.0, "G02",
        MockExplanation2,
        [3.0, 5.0, 4.0, 3.0, 2.0, 2.0, 3.0, 5.0, 4.0, 1.0, 5.0, 4.0, 3.0, 1.0, 2.0, 3.0, 4.0],
        None, None, None),
      CompanyRecommendation("에코 플라스틱", "ECP003", 85.2, "G12",
        MockExplanation3,
        [1.0, 2.0, 3.0, 2.0, 3.0, 5.0, 3.0, 3.0, 4.0, 2.0, 4.0, 5.0, 5.0, 4.0, 3.0, 2.0, 3.0],
        None, None, None)
    ]))
  }

  /** Each fallback company names its top goal by a table code (G07, G02,
      G12) and rates that goal, at slot id-1, with the highest mark. */
  lemma MockTopGoalRatedFive()
    ensures var cs := MockResponse().recommendedCompanies.value;
            forall c :: c in cs ==>
              exists id :: 1 <= id <= GoalCount && c.topSdg == GoalCode(id) && c.sdgAlignment[id - 1] == 5.0
  {
    var cs := MockResponse().recommendedCompanies.value;
    assert GoalCode(7) == "G07" && GoalCode(2) == "G02" && GoalCode(12) == "G12";
    assert cs[0].sdgAlignment[6] == 5.0 && cs[1].sdgAlignment[1] == 5.0 && cs[2].sdgAlignment[11] == 5.0;
  }

  /** What the text-generation call produced: a parsed JSON value (`None`
      for `null`), or an error thrown by the call or the parse. */
  datatype LlmCall = Parsed(value: Option<ModelOutput>) | CallFailed

  /** `getCompanyRecommendations`: the fallback answer without a key or when
      the call fails, the parsed answer otherwise. */
  function GetCompanyRecommendations(hasApiKey: bool, call: LlmCall): (r: Option<ModelOutput>)
    ensures !hasApiKey || call.CallFailed? ==> r == Some(MockResponse())
    ensures hasApiKey && call.Parsed? ==> r == call.value
  {
    if !hasApiKey then Some(MockResponse())
    else match call
      case CallFailed => Some(MockResponse())
      case Parsed(v) => v
  }

  /** Without a working call the answer always lists the three fallback companies. */
  lemma FallbackAlwaysLists(hasApiKey: bool, call: LlmCall)
    requires !hasApiKey || call.CallFailed?
    ensures GetCompanyRecommendations(hasApiKey, call).Some?
    ensures GetCompanyRecommendations(hasApiKey, call).value.recommendedCompanies.Some?
    ensures |GetCompanyRecommendations(hasApiKey, call).value.recommendedCompanies.value| == 3
  {
  }

  datatype InlineData = InlineData(mimeType: Option<string>, data: Option<string>)
  datatype Part = Part(inlineData: Option<InlineData>)
  datatype Content = Content(parts: Option<seq<Part>>)
  datatype Candidate = Candidate(content: Option<Content>)
  datatype ImageResponse = ImageResponse(candidates: Option<seq<Candidate>>)
  datatype ImageCall = Responded(response: ImageResponse) | ImageCallFailed

  /** `part.inlineData && part.inlineData.data`: inline data with a non-empty payload. */
  predicate HasInlineData(p: Part)
  {
    p.inlineData.Some? && p.inlineData.value.data.Some? && p.inlineData.value.data.value != ""
  }

  /** `candidate.content?.parts || []` */
  function PartsOf(c: Candidate): seq<Part>
  {
    if c.content.Some? && c.content.value.parts.Some? then c.content.value.parts.value else []
  }

  /** Reference order of the search: every part of every candidate, in turn. */
  function AllParts(cs: seq<Candidate>): seq<Part>
  {
    if |cs| == 0 then [] else PartsOf(cs[0]) + AllParts(cs[1..])
  }

  /** Exactly the candidates' parts are searched, each candidate's parts with
      at least their own multiplicity. */
  lemma {:induction false} AllPartsMembers(cs: seq<Candidate>)
    ensures forall p :: p in AllParts(cs) <==> exists i :: 0 <= i < |cs| && p in PartsOf(cs[i])
    ensures forall i :: 0 <= i < |cs| ==> multiset(PartsOf(cs[i])) <= multiset(AllParts(cs))
  {
    if |cs| > 0 {
      AllPartsMembers(cs[1..]);
      assert forall i :: 1 <= i < |cs| ==> cs[1..][i - 1] == cs[i];
      assert AllParts(cs) == PartsOf(cs[0]) + AllParts(cs[1..]);
    }
  }

  /** The parts of two candidate lists in a row are the first list's parts
      followed by the second's. */
  lemma {:induction false} AllPartsConcat(a: seq<Candidate>, b: seq<Candidate>)
    ensures AllParts(a + b) == AllParts(a) + AllParts(b)
  {
    if |a| == 0 {
      assert a + b == b;
    } else {
      assert (a + b)[0] == a[0];
      assert (a + b)[1..] == a[1..] + b;
      AllPartsConcat(a[1..], b);
    }
  }

  /** The first part, in list order, that carries inline data. */
  function FirstInlineIn(ps: seq<Part>): (r: Option<InlineData>)
    ensures r.None? <==> forall k :: 0 <= k < |ps| ==> !HasInlineData(ps[k])
    ensures r.Some? ==> exists k :: 0 <= k < |ps| && HasInlineData(ps[k]) && ps[k].inlineData.value == r.value
                          && forall j :: 0 <= j < k ==> !HasInlineData(ps[j])
  {
    if |ps| == 0 then None
    else if HasInlineData(ps[0]) then Some(ps[0].inlineData.value)
    else
      var r := FirstInlineIn(ps[1..]);
      assert forall k :: 1 <= k < |ps| ==> ps[1..][k - 1] == ps[k];
      if r.Some? then
        ghost var k :| 0 <= k < |ps[1..]| && HasInlineData(ps[1..][k]) && ps[1..][k].inlineData.value == r.value
                      && forall j :: 0 <= j < k ==> !HasInlineData(ps[1..][j]);
        assert ps[k + 1] == ps[1..][k];
        r
      else r
  }

  /** The two nested loops of `generateCompanyImage`: candidates in order,
      and within each its parts in order, stopping at the first hit. */
  function FirstInline(cs: seq<Candidate>): (r: Option<InlineData>)
    ensures r == FirstInlineIn(AllParts(cs))
  {
    if |cs| == 0 then None
    else match FirstInlineIn(PartsOf(cs[0]))
      case Some(d) =>
        FirstInlineConcat(PartsOf(cs[0]), AllParts(cs[1..]));
        Some(d)
      case None =>
        FirstInlineConcat(PartsOf(cs[0]), AllParts(cs[1..]));
        FirstInline(cs[1..])
  }

  /** Searching a concatenation searches the left list first. */
  lemma {:induction false} FirstInlineConcat(a: seq<Part>, b: seq<Part>)
    ensures FirstInlineIn(a + b) == if FirstInlineIn(a).Some? then FirstInlineIn(a) else FirstInlineIn(b)
  {
    if |a| > 0 {
      assert (a + b)[0] == a[0];
      assert (a + b)[1..] == a[1..] + b;
      FirstInlineConcat(a[1..], b);
    } else {
      assert a + b == b;
    }
  }

  /** A template literal prints a missing MIME type as "undefined". */
  function MimeText(mime: Option<string>): string
  {
    if mime.Some? then mime.value else "undefined"
  }

  /** A `data:` URL with a base64 payload, as in section 3 of RFC 2397. */
  function DataUrl(mime: string, data: string): (url: string)
    ensures |url| == 5 + |mime| + 8 + |data|
    ensures url[..5] == "data:"
    ensures url[5..5 + |mime|] == mime
    ensures url[5 + |mime|..5 + |mime| + 8] == ";base64,"
    ensures url[5 + |mime| + 8..] == data
  {
    "data:" + mime + ";base64," + data
  }

  /** `generateCompanyImage`: with a key and an answer, the first inline
      image found, as a data URL; nothing otherwise. */
  function GenerateCompanyImage(hasApiKey: bool, call: ImageCall): (url: Option<string>)
    ensures url.Some? <==>
              hasApiKey && call.Responded? && call.response.candidates.Some?
              && exists k :: 0 <= k < |AllParts(call.response.candidates.value)|
                             && HasInlineData(AllParts(call.response.candidates.value)[k])
    ensures url.Some? ==>
              var d := FirstInlineIn(AllParts(call.response.candidates.value)).value;
              url.value == DataUrl(MimeText(d.mimeType), d.data.value)
  {
    if !hasApiKey then None
    else match call
      case ImageCallFailed => None
      case Responded(resp) =>
        var cs := if resp.candidates.Some? then resp.candidates.value else [];
        assert resp.candidates.None? ==> AllParts(cs) == [];
        match FirstInline(cs)
        case None => None
        case Some(d) => Some(DataUrl(MimeText(d.mimeType), d.data.value))
  }
}

=== FILE: investment_survey.dfy ===
/** The investment-profile screen (components/InvestmentSurvey.tsx): one risk
    attitude, any number of past investment kinds, one investment period. */
module InvestmentSurvey {
  import opened Types

  datatype RiskOption = RiskOption(value: RiskPreference, caption: string, description: string)

  const RiskOptions: seq<RiskOption> := [
    RiskOption(Safe, "안전형", "원금 손실 위험을 최소화하고, 안정적인 수익을 추구합니다."),
    RiskOption(Neutral, "중립형", "어느 정도의 위험을 감수하며, 안정성과 수익성의 균형을 맞춥니다."),
    RiskOption(Aggressive, "공격형", "높은 수익을 위해 높은 위험을 감수할 수 있습니다.")
  ]

  const ExperienceOptions: seq<string> := ["주식", "펀드", "채권", "부동산", "암호화폐", "경험 없음"]
  const PeriodOptions: seq<string> := ["1년 미만", "1~3년", "3~5년", "5년 이상"]

  /** The risk choices are the three attitudes, safest first, each shown
      under its own label. */
  lemma RiskOptionsAreTheThreeLabels()
    ensures |RiskOptions| == 3
    ensures RiskOptions[0].value == Safe && RiskOptions[1].value == Neutral && RiskOptions[2].value == Aggressive
    ensures forall k :: 0 <= k < |RiskOptions| ==> RiskOptions[k].caption == RiskLabel(RiskOptions[k].value)
  {
  }

  /** `prev.filter(item => item !== x)` */
  function RemoveAll(xs: seq<string>, x: string): (r: seq<string>)
    ensures x !in r
    ensures forall y :: y != x ==> multiset(r)[y] == multiset(xs)[y]
    ensures x !in xs ==> r == xs
  {
    if |xs| == 0 then []
    else
      assert xs == [xs[0]] + xs[1..];
      if xs[0] == x then RemoveAll(xs[1..], x) else [xs[0]] + RemoveAll(xs[1..], x)
  }

  /** Filtering a concatenation filters each part, so the kept items stay
      in their order. */
  lemma {:induction false} RemoveAllConcat(a: seq<string>, b: seq<string>, x: string)
    ensures RemoveAll(a + b, x) == RemoveAll(a, x) + RemoveAll(b, x)
  {
    if |a| == 0 {
      assert a + b == b;
    } else {
      assert (a + b)[0] == a[0];
      assert (a + b)[1..] == a[1..] + b;
      RemoveAllConcat(a[1..], b, x);
    }
  }

  /** `handleExperienceChange`: a chosen kind is unchosen (every copy of it),
      an unchosen one is appended. */
  function ToggleExperience(prev: seq<string>, e: string): (next: seq<string>)
    ensures e in prev ==> e !in next
    ensures e !in prev ==> next == prev + [e]
    ensures forall y :: y != e ==> multiset(next)[y] == multiset(prev)[y]
  {
    if e in prev then RemoveAll(prev, e) else prev + [e]
  }

  predicate NoDuplicates(xs: seq<string>)
  {
    forall i, j :: 0 <= i < j < |xs| ==> xs[i] != xs[j]
  }

  /** A list without repeats has each member exactly once in its multiset. */
  lemma NoDuplicatesCounts(xs: seq<string>)
    ensures NoDuplicates(xs) <==> forall y :: multiset(xs)[y] <= 1
  {
    if NoDuplicates(xs) {
      forall y ensures multiset(xs)[y] <= 1 { CountAtMostOne(xs, y); }
    }
    if !NoDuplicates(xs) {
      var i, j :| 0 <= i < j < |xs| && xs[i] == xs[j];
      TwoCopies(xs, i, j);
    }
  }

  lemma {:induction false} CountAtMostOne(xs: seq<string>, y: string)
    requires NoDuplicates(xs)
    ensures multiset(xs)[y] <= 1
  {
    if |xs| > 0 {
      assert xs == [xs[0]] + xs[1..];
      assert NoDuplicates(xs[1..]) by {
        forall i, j | 0 <= i < j < |xs[1..]|
          ensures xs[1..][i] != xs[1..][j]
        {
          assert xs[1..][i] == xs[i + 1] && xs[1..][j] == xs[j + 1];
        }
      }
      CountAtMostOne(xs[1..], y);
      if xs[0] == y {
        assert y !in xs[1..] by {
          forall k | 0 <= k < |xs[1..]| ensures xs[1..][k] != y { assert xs[1..][k] == xs[k + 1]; }
        }
      }
    }
  }

  lemma TwoCopies(xs: seq<string>, i: int, j: int)
    requires 0 <= i < j < |xs| && xs[i] == xs[j]
    ensures multiset(xs)[xs[i]] >= 2
  {
    assert xs == xs[..j] + [xs[j]] + xs[j + 1..];
    assert xs[i] in xs[..j] by { assert xs[..j][i] == xs[i]; }
  }

  /** Toggling never introduces a repeated kind. */
  lemma ToggleKeepsNoDuplicates(prev: seq<string>, e: string)
    requires NoDuplicates(prev)
    ensures NoDuplicates(ToggleExperience(prev, e))
  {
    var next := ToggleExperience(prev, e);
    NoDuplicatesCounts(prev);
    forall y ensures multiset(next)[y] <= 1 {
      if y == e {
        if e !in prev {
          assert multiset(next)[e] == multiset(prev)[e] + 1;
        }
      }
    }
    NoDuplicatesCounts(next);
  }

  /** Unchoosing a kind of a list without repeats removes just that kind
      and keeps the others in their order. */
  lemma ToggleRemovesInPlace(prev: seq<string>, i: int)
    requires NoDuplicates(prev)
    requires 0 <= i < |prev|
    ensures ToggleExperience(prev, prev[i]) == prev[..i] + prev[i + 1..]
  {
    var e := prev[i];
    var pre, post := prev[..i], prev[i + 1..];
    assert prev == (pre + [e]) + post;
    assert e !in pre by {
      forall k | 0 <= k < |pre| ensures pre[k] != e { assert pre[k] == prev[k]; }
    }
    assert e !in post by {
      forall k | 0 <= k < |post| ensures post[k] != e { assert post[k] == prev[i + 1 + k]; }
    }
    RemoveAllConcat(pre + [e], post, e);
    RemoveAllConcat(pre, [e], e);
    assert RemoveAll([e], e) == [];
  }

  /** Choosing an unchosen kind and then unchoosing it gives back the list. */
  lemma ToggleTwiceRestores(prev: seq<string>, e: string)
    requires e !in prev
    ensures ToggleExperience(ToggleExperience(prev, e), e) == prev
  {
    RemoveAllAppended(prev, e);
  }

  lemma {:induction false} RemoveAllAppended(prev: seq<string>, e: string)
    requires e !in prev
    ensures RemoveAll(prev + [e], e) == prev
  {
    if |prev| == 0 {
      assert prev + [e] == [e];
    } else {
      assert (prev + [e])[1..] == prev[1..] + [e];
      assert e !in prev[1..];
      RemoveAllAppended(prev[1..], e);
      assert prev == [prev[0]] + prev[1..];
    }
  }

  /** The screen's local answers. */
  datatype SurveyForm = SurveyForm(
    riskPreference: Option<RiskPreference>,
    investmentExperience: seq<string>,
    investmentPeriod: Option<string>)

  /** The screen's answers when it opens: nothing chosen yet. */
  const EmptyForm := SurveyForm(None, [], None)

  /** What the screen hands to the application once every question is answered. */
  datatype SurveyAnswers = SurveyAnswers(
    riskPreference: RiskPreference,
    investmentExperience: seq<string>,
    investmentPeriod: string)

  datatype SubmitOutcome = Completed(answers: SurveyAnswers) | Alerted

  /** JavaScript truthiness of a `string | null`: the empty string is false. */
  predicate Truthy(s: Option<string>)
  {
    s.Some? && s.value != ""
  }

  /** `handleSubmit`: completes with the answers when a risk attitude, a
      period and at least one kind are chosen, and alerts otherwise. */
  function HandleSubmit(form: SurveyForm): (out: SubmitOutcome)
    ensures out.Completed? <==>
              form.riskPreference.Some? && Truthy(form.investmentPeriod) && |form.investmentExperience| > 0
    ensures out.Completed? ==>
              && out.answers.riskPreference == form.riskPreference.value
              && out.answers.investmentPeriod == form.investmentPeriod.value
              && out.answers.investmentExperience == form.investmentExperience
  {
    if form.riskPreference.Some? && Truthy(form.investmentPeriod) && |form.investmentExperience| > 0 then
      Completed(SurveyAnswers(form.riskPreference.value, form.investmentExperience, form.investmentPeriod.value))
    else Alerted
  }

  /** The submit button's `disabled` expression. */
  predicate SubmitDisabled(form: SurveyForm)
  {
    form.riskPreference.None? || !Truthy(form.investmentPeriod) || |form.investmentExperience| == 0
  }

  /** The button is greyed out exactly when submitting would only alert. */
  lemma DisabledIffRejected(form: SurveyForm)
    ensures SubmitDisabled(form) <==> HandleSubmit(form).Alerted?
  {
  }

  /** The screen as it opens only alerts; answering every question through
      its own options from there submits exactly the chosen answers. */
  lemma ListedAnswersSubmit(risk: int, kind: int, period: int)
    requires 0 <= risk < |RiskOptions| && 0 <= kind < |ExperienceOptions| && 0 <= period < |PeriodOptions|
    ensures HandleSubmit(EmptyForm).Alerted?
    ensures HandleSubmit(EmptyForm.(riskPreference := Some(RiskOptions[risk].value),
                                    investmentExperience := ToggleExperience(EmptyForm.investmentExperience, ExperienceOptions[kind]),
                                    investmentPeriod := Some(PeriodOptions[period])))
            == Completed(SurveyAnswers(RiskOptions[risk].value, [ExperienceOptions[kind]], PeriodOptions[period]))
  {
    assert PeriodOptions[period] != "";
    assert ToggleExperience([], ExperienceOptions[kind]) == [ExperienceOptions[kind]];
  }
}

=== FILE: js_text.dfy ===
/** The JavaScript string primitives the screens rely on: the `\s` class of
    regular expressions, `String.prototype.trim` and `split(' ')[0]`. */
module JsText {

  /** ECMAScript WhiteSpace and LineTerminator code points: the set both
      `\s` and `trim` use. */
  const JsSpaces: set<char> := {
    '\t', '\n', '\U{000B}', '\U{000C}', '\r', ' ', '\U{00A0}', '\U{1680}',
    '\U{2000}', '\U{2001}', '\U{2002}', '\U{2003}', '\U{2004}', '\U{2005}',
    '\U{2006}', '\U{2007}', '\U{2008}', '\U{2009}', '\U{200A}',
    '\U{2028}', '\U{2029}', '\U{202F}', '\U{205F}', '\U{3000}', '\U{FEFF}'
  }

  predicate IsJsSpace(c: char)
  {
    c in JsSpaces
  }

  /** Number of leading whitespace characters. */
  function LeadingSpaces(s: string): (n: nat)
    ensures n <= |s|
    ensures forall k :: 0 <= k < n ==> IsJsSpace(s[k])
    ensures n < |s| ==> !IsJsSpace(s[n])
  {
    if |s| == 0 || !IsJsSpace(s[0]) then 0 else 1 + LeadingSpaces(s[1..])
  }

  /** Length of `s` once its trailing whitespace is dropped. */
  function KeptBeforeTrailing(s: string): (m: nat)
    ensures m <= |s|
    ensures forall k :: m <= k < |s| ==> IsJsSpace(s[k])
    ensures m > 0 ==> !IsJsSpace(s[m - 1])
  {
    if |s| == 0 || !IsJsSpace(s[|s| - 1]) then |s| else KeptBeforeTrailing(s[..|s| - 1])
  }

  /** Where `trim` cuts: the kept text is `s[LeadingSpaces(s)..TrimHi(s)]`. */
  function TrimHi(s: string): (hi: nat)
    ensures LeadingSpaces(s) <= hi <= |s|
    ensures forall k :: 0 <= k < LeadingSpaces(s) ==> IsJsSpace(s[k])
    ensures forall k :: hi <= k < |s| ==> IsJsSpace(s[k])
    ensures LeadingSpaces(s) < hi ==> !IsJsSpace(s[LeadingSpaces(s)]) && !IsJsSpace(s[hi - 1])
  {
    var lo := LeadingSpaces(s);
    TrailingOfSuffix(s, lo);
    lo + KeptBeforeTrailing(s[lo..])
  }

  /** Trailing whitespace of a suffix is trailing whitespace of the whole text. */
  lemma TrailingOfSuffix(s: string, lo: nat)
    requires lo <= |s|
    ensures var m := KeptBeforeTrailing(s[lo..]);
            && (forall k :: lo + m <= k < |s| ==> IsJsSpace(s[k]))
            && (m > 0 ==> !IsJsSpace(s[lo + m - 1]))
  {
    var t := s[lo..];
    var m := KeptBeforeTrailing(t);
    forall k | lo + m <= k < |s| ensures IsJsSpace(s[k]) { assert s[k] == t[k - lo]; }
    if m > 0 { assert s[lo + m - 1] == t[m - 1]; }
  }

  /** `String.prototype.trim`: the text with leading and trailing whitespace
      removed, and nothing else changed. */
  function Trim(s: string): (r: string)
    ensures |r| <= |s|
    ensures r == s[LeadingSpaces(s)..TrimHi(s)]
    ensures r != [] ==> !IsJsSpace(r[0]) && !IsJsSpace(r[|r| - 1])
    ensures (forall k :: 0 <= k < |s| ==> IsJsSpace(s[k])) <==> r == []
  {
    s[LeadingSpaces(s)..TrimHi(s)]
  }

  /** Every character of `s` is whitespace. */
  predicate AllSpace(s: string)
  {
    forall k :: 0 <= k < |s| ==> IsJsSpace(s[k])
  }

  /** `s` is `core` with whitespace, possibly none, before and after it. */
  predicate Padded(s: string, core: string)
  {
    exists lo, hi :: 0 <= lo <= hi <= |s| && s[lo..hi] == core && AllSpace(s[..lo]) && AllSpace(s[hi..])
  }

  /** Trimming takes away whitespace and nothing else. */
  lemma TrimIsPadding(s: string)
    ensures Padded(s, Trim(s))
  {
    var lo, hi := LeadingSpaces(s), TrimHi(s);
    assert AllSpace(s[..lo]) by {
      forall k | 0 <= k < lo ensures IsJsSpace(s[..lo][k]) { assert s[..lo][k] == s[k]; }
    }
    assert AllSpace(s[hi..]) by {
      forall k | 0 <= k < |s| - hi ensures IsJsSpace(s[hi..][k]) { assert s[hi..][k] == s[hi + k]; }
    }
  }

  /** `s.split(' ')[0]`: the text before the first U+0020, or all of it. */
  function FirstWord(s: string): (w: string)
    ensures |w| <= |s| && w == s[..|w|]
    ensures ' ' !in w
    ensures |w| < |s| ==> s[|w|] == ' '
  {
    if |s| == 0 || s[0] == ' ' then [] else [s[0]] + FirstWord(s[1..])
  }
}

=== FILE: radar_chart.dfy ===
/** The data behind the company page's radar chart
    (components/RadarChartComponent.tsx, `chartData`). */
module RadarChart {
  import opened Types
  import opened JsText
  import opened Constants

  /** The mark the user's side of the chart always shows, and the axis maximum. */
  const UserMark := 5
  const FullMark := 5

  /** One spoke of the chart; `company` is `None` where the alignment array
      has no element at that index (JavaScript reads `undefined`). */
  datatype ChartPoint = ChartPoint(subject: string, company: Option<real>, user: int, fullMark: int)

  /** `a[i]` on a JavaScript array of numbers. */
  function ArrayRead(a: seq<real>, i: int): (v: Option<real>)
    ensures v.Some? <==> 0 <= i < |a|
    ensures v.Some? ==> v.value == a[i]
  {
    if 0 <= i < |a| then Some(a[i]) else None
  }

  /** One point per goal the user picked, in the order picked: the title's
      first word, the company's alignment for that goal, and the user's
      fixed full mark. */
  function ChartData(userSdgs: seq<Sdg>, alignment: seq<real>): (pts: seq<ChartPoint>)
    ensures |pts| == |userSdgs|
    ensures forall k :: 0 <= k < |pts| ==> pts[k].user == UserMark && pts[k].fullMark == FullMark
    ensures forall k :: 0 <= k < |pts| ==>
              (pts[k].company.Some? <==> 1 <= userSdgs[k].id <= |alignment|)
    ensures forall k :: 0 <= k < |pts| && pts[k].company.Some? ==>
              pts[k].company.value == alignment[userSdgs[k].id - 1]
    ensures forall k :: 0 <= k < |pts| ==>
              var title := userSdgs[k].title;
              && |pts[k].subject| <= |title|
              && title[..|pts[k].subject|] == pts[k].subject
              && ' ' !in pts[k].subject
              && (|pts[k].subject| == |title| || title[|pts[k].subject|] == ' ')
  {
    seq(|userSdgs|, k requires 0 <= k < |userSdgs| =>
      ChartPoint(FirstWord(userSdgs[k].title), ArrayRead(alignment, userSdgs[k].id - 1), UserMark, FullMark))
  }

  /** Goals taken from the table, charted against a full seventeen-goal
      alignment, all get a company value. */
  lemma TableGoalsAlwaysCharted(userSdgs: seq<Sdg>, alignment: seq<real>)
    requires forall k :: 0 <= k < |userSdgs| ==> userSdgs[k] in SdgList
    requires |alignment| == GoalCount
    ensures forall p :: p in ChartData(userSdgs, alignment) ==> p.company.Some?
  {
    SdgListShape();
    var pts := ChartData(userSdgs, alignment);
    forall p | p in pts
      ensures p.company.Some?
    {
      var k :| 0 <= k < |pts| && pts[k] == p;
      var j :| 0 <= j < |SdgList| && SdgList[j] == userSdgs[k];
      assert userSdgs[k].id == j + 1;
    }
  }
}

=== FILE: sdg_selection.dfy ===
/** The goal screen (components/SdgSelection.tsx): pick exactly three goals,
    then give each picked goal an importance from 1 to 5. */
module SdgSelection {
  import opened Types
  import opened Constants

  /** Most goals a user may hold selected at once. */
  const MaxSelected := 3
  /** Importance every picked goal starts with. */
  const DefaultScore := 3
  /** The importance buttons, left to right. */
  const ScoreButtons: seq<int> := [1, 2, 3, 4, 5]

  /** `prev.some(s => s.id === id)` */
  predicate HasId(sdgs: seq<Sdg>, id: int)
  {
    exists k :: 0 <= k < |sdgs| && sdgs[k].id == id
  }

  /** A list holds an id when its head or its tail does. */
  lemma HasIdUncons(sdgs: seq<Sdg>, id: int)
    requires |sdgs| > 0
    ensures HasId(sdgs, id) <==> sdgs[0].id == id || HasId(sdgs[1..], id)
  {
    if HasId(sdgs[1..], id) {
      var k :| 0 <= k < |sdgs[1..]| && sdgs[1..][k].id == id;
      assert sdgs[k + 1].id == id;
    }
    if HasId(sdgs, id) && sdgs[0].id != id {
      var k :| 0 <= k < |sdgs| && sdgs[k].id == id;
      assert sdgs[1..][k - 1].id == id;
    }
  }

  /** `prev.filter(s => s.id !== id)`: every entry with that id dropped, the
      rest kept in order. */
  function WithoutId(sdgs: seq<Sdg>, id: int): (r: seq<Sdg>)
    ensures |r| <= |sdgs|
    ensures !HasId(r, id)
    ensures forall k :: 0 <= k < |r| ==> r[k] in sdgs
    ensures HasId(sdgs, id) ==> |r| < |sdgs|
    ensures !HasId(sdgs, id) ==> r == sdgs
  {
    if |sdgs| == 0 then []
    else
      HasIdUncons(sdgs, id);
      if sdgs[0].id == id then WithoutId(sdgs[1..], id)
      else
        var rest := WithoutId(sdgs[1..], id);
        HasIdUncons([sdgs[0]] + rest, id);
        assert ([sdgs[0]] + rest)[1..] == rest;
        assert !HasId(sdgs, id) ==> sdgs == [sdgs[0]] + sdgs[1..];
        [sdgs[0]] + rest
  }

  /** `handleSdgClick`: a selected goal is deselected; an unselected one is
      appended while fewer than three are held, and ignored otherwise. */
  function ToggleSdg(prev: seq<Sdg>, sdg: Sdg): (next: seq<Sdg>)
    ensures HasId(prev, sdg.id) ==> !HasId(next, sdg.id) && |next| < |prev|
    ensures HasId(prev, sdg.id) ==> next == WithoutId(prev, sdg.id)
    ensures !HasId(prev, sdg.id) && |prev| < MaxSelected ==> next == prev + [sdg]
    ensures !HasId(prev, sdg.id) && |prev| >= MaxSelected ==> next == prev
    ensures HasId(next, sdg.id) <==> !HasId(prev, sdg.id) && |prev| < MaxSelected
  {
    if HasId(prev, sdg.id) then WithoutId(prev, sdg.id)
    else if |prev| < MaxSelected then
      assert (prev + [sdg])[|prev|].id == sdg.id;
      prev + [sdg]
    else prev
  }

  /** Filtering a concatenation filters each half. */
  lemma {:induction false} WithoutIdConcat(a: seq<Sdg>, b: seq<Sdg>, id: int)
    ensures WithoutId(a + b, id) == WithoutId(a, id) + WithoutId(b, id)
  {
    if |a| == 0 {
      assert a + b == b;
    } else {
      assert (a + b)[0] == a[0];
      assert (a + b)[1..] == a[1..] + b;
      WithoutIdConcat(a[1..], b, id);
    }
  }

  /** Filtering out the id of one entry drops just that entry. */
  lemma WithoutIdSingle(x: Sdg)
    ensures WithoutId([x], x.id) == []
  {
    assert [x][1..] == [];
  }

  /** The entries other than `sdgs[i]` carry other ids. */
  lemma OthersLackId(sdgs: seq<Sdg>, i: int)
    requires DistinctIds(sdgs)
    requires 0 <= i < |sdgs|
    ensures !HasId(sdgs[..i], sdgs[i].id) && !HasId(sdgs[i + 1..], sdgs[i].id)
  {
    var pre, post := sdgs[..i], sdgs[i + 1..];
    forall k | 0 <= k < |pre| ensures pre[k].id != sdgs[i].id { assert pre[k] == sdgs[k]; }
    forall k | 0 <= k < |post| ensures post[k].id != sdgs[i].id { assert post[k] == sdgs[i + 1 + k]; }
  }

  /** Filtering a list that holds the id once removes exactly that entry. */
  lemma WithoutIdRemovesOne(sdgs: seq<Sdg>, i: int)
    requires DistinctIds(sdgs)
    requires 0 <= i < |sdgs|
    ensures WithoutId(sdgs, sdgs[i].id) == sdgs[..i] + sdgs[i + 1..]
  {
    var id := sdgs[i].id;
    var pre, x, post := sdgs[..i], sdgs[i], sdgs[i + 1..];
    assert sdgs == (pre + [x]) + post;
    OthersLackId(sdgs, i);
    WithoutIdConcat(pre + [x], post, id);
    WithoutIdConcat(pre, [x], id);
    WithoutIdSingle(x);
    assert WithoutId(pre, id) == pre;
    assert WithoutId(post, id) == post;
    assert WithoutId(pre + [x], id) == pre;
  }

  /** Clicking a selected goal removes it and keeps the others in order. */
  lemma DeselectKeepsOrder(prev: seq<Sdg>, i: int, sdg: Sdg)
    requires DistinctIds(prev)
    requires 0 <= i < |prev| && prev[i].id == sdg.id
    ensures ToggleSdg(prev, sdg) == prev[..i] + prev[i + 1..]
  {
    WithoutIdRemovesOne(prev, i);
  }

  /** The selection never holds a goal twice nor more than three goals. */
  predicate ValidSelection(sdgs: seq<Sdg>)
  {
    DistinctIds(sdgs) && |sdgs| <= MaxSelected
  }

  lemma {:induction false} WithoutIdKeepsDistinct(sdgs: seq<Sdg>, id: int)
    requires DistinctIds(sdgs)
    ensures DistinctIds(WithoutId(sdgs, id))
  {
    if |sdgs| > 0 {
      DistinctTail(sdgs);
      WithoutIdKeepsDistinct(sdgs[1..], id);
      if sdgs[0].id != id {
        var rest := WithoutId(sdgs[1..], id);
        forall k | 0 <= k < |rest|
          ensures rest[k].id != sdgs[0].id
        {
          var j :| 0 <= j < |sdgs[1..]| && sdgs[1..][j] == rest[k];
          assert sdgs[j + 1] == rest[k];
        }
        DistinctCons(sdgs[0], rest);
      }
    }
  }

  /** Dropping the head keeps ids distinct. */
  lemma DistinctTail(sdgs: seq<Sdg>)
    requires |sdgs| > 0 && DistinctIds(sdgs)
    ensures DistinctIds(sdgs[1..])
  {
    forall a, b | 0 <= a < b < |sdgs[1..]|
      ensures sdgs[1..][a].id != sdgs[1..][b].id
    {
      assert sdgs[1..][a] == sdgs[a + 1] && sdgs[1..][b] == sdgs[b + 1];
    }
  }

  /** A head whose id the distinct tail lacks keeps ids distinct. */
  lemma DistinctCons(x: Sdg, rest: seq<Sdg>)
    requires DistinctIds(rest)
    requires forall k :: 0 <= k < |rest| ==> rest[k].id != x.id
    ensures DistinctIds([x] + rest)
  {
    var r := [x] + rest;
    forall a, b | 0 <= a < b < |r|
      ensures r[a].id != r[b].id
    {
      assert r[b] == rest[b - 1];
      if a > 0 { assert r[a] == rest[a - 1]; }
    }
  }

  /** Every click keeps the selection valid. */
  lemma ToggleKeepsValid(prev: seq<Sdg>, sdg: Sdg)
    requires ValidSelection(prev)
    ensures ValidSelection(ToggleSdg(prev, sdg))
  {
    if HasId(prev, sdg.id) {
      WithoutIdKeepsDistinct(prev, sdg.id);
    } else if |prev| < MaxSelected {
      var next := prev + [sdg];
      forall a, b | 0 <= a < b < |next|
        ensures next[a].id != next[b].id
      {
        if b == |prev| {
          assert next[a] == prev[a];
        } else {
          assert next[a] == prev[a] && next[b] == prev[b];
        }
      }
    }
  }

  /** Selecting a goal and clicking it again gives back the earlier selection. */
  lemma SelectThenDeselect(prev: seq<Sdg>, sdg: Sdg)
    requires !HasId(prev, sdg.id) && |prev| < MaxSelected
    ensures ToggleSdg(ToggleSdg(prev, sdg), sdg) == prev
  {
    var next := prev + [sdg];
    assert ToggleSdg(prev, sdg) == next;
    assert HasId(next, sdg.id) by { assert next[|prev|].id == sdg.id; }
    if DistinctIds(prev) {
      forall a, b | 0 <= a < b < |next|
        ensures next[a].id != next[b].id
      {
        if b == |prev| { assert next[a] == prev[a]; }
        else { assert next[a] == prev[a] && next[b] == prev[b]; }
      }
      WithoutIdRemovesOne(next, |prev|);
      assert next[..|prev|] + next[|prev| + 1..] == prev;
    } else {
      WithoutIdAppendAbsent(prev, sdg);
    }
  }

  lemma WithoutIdAppendAbsent(prev: seq<Sdg>, sdg: Sdg)
    requires !HasId(prev, sdg.id)
    ensures WithoutId(prev + [sdg], sdg.id) == prev
  {
    WithoutIdConcat(prev, [sdg], sdg.id);
    assert WithoutId([sdg], sdg.id) == [];
  }

  /** The goal card's gate: a card is disabled while three goals are held and
      it is not one of them; a disabled card ignores clicks. */
  predicate CardDisabled(selected: seq<Sdg>, sdg: Sdg)
  {
    |selected| >= MaxSelected && !HasId(selected, sdg.id)
  }

  function ClickCard(selected: seq<Sdg>, sdg: Sdg): (next: seq<Sdg>)
    ensures CardDisabled(selected, sdg) ==> next == selected
  {
    if !CardDisabled(selected, sdg) || HasId(selected, sdg.id) then ToggleSdg(selected, sdg) else selected
  }

  /** The card's gate never changes the outcome: a disabled card's click is
      exactly the click the toggle itself ignores. */
  lemma CardGateAgreesWithToggle(selected: seq<Sdg>, sdg: Sdg)
    ensures ClickCard(selected, sdg) == ToggleSdg(selected, sdg)
  {
  }

  /** A sequence of card clicks, from left to right. */
  function Clicks(selected: seq<Sdg>, clicked: seq<Sdg>): seq<Sdg>
    decreases |clicked|
  {
    if |clicked| == 0 then selected
    else Clicks(ClickCard(selected, clicked[0]), clicked[1..])
  }

  /** From any valid selection, any sequence of clicks leaves a valid selection. */
  lemma {:induction false} ClicksKeepValid(selected: seq<Sdg>, clicked: seq<Sdg>)
    requires ValidSelection(selected)
    ensures ValidSelection(Clicks(selected, clicked))
    decreases |clicked|
  {
    if |clicked| > 0 {
      CardGateAgreesWithToggle(selected, clicked[0]);
      ToggleKeepsValid(selected, clicked[0]);
      ClicksKeepValid(ClickCard(selected, clicked[0]), clicked[1..]);
    }
  }

  /** The selection phase's "next" button is enabled only with exactly three goals. */
  function Proceed(selected: seq<Sdg>): (r: Option<seq<Sdg>>)
    ensures r.Some? <==> |selected| == MaxSelected
    ensures r.Some? ==> r.value == selected
  {
    if |selected| != MaxSelected then None else Some(selected)
  }

  /** A selection the button lets through names three different goals. */
  lemma ProceedHasThreeGoals(selected: seq<Sdg>)
    requires ValidSelection(selected)
    requires Proceed(selected).Some?
    ensures |Proceed(selected).value| == 3 && DistinctIds(Proceed(selected).value)
  {
  }

  /** The effect run when the scoring phase opens: with a non-empty list of
      goals to score, every goal gets the default importance; otherwise the
      scores are left as they were. */
  function InitScores(forScoring: Option<seq<Sdg>>, prev: seq<SdgScore>): (scores: seq<SdgScore>)
    ensures forScoring.Some? && |forScoring.value| > 0 ==>
              |scores| == |forScoring.value|
              && forall k :: 0 <= k < |scores| ==> scores[k].sdgId == forScoring.value[k].id && scores[k].score == DefaultScore
    ensures !(forScoring.Some? && |forScoring.value| > 0) ==> scores == prev
  {
    if forScoring.Some? && |forScoring.value| > 0 then
      seq(|forScoring.value|, k requires 0 <= k < |forScoring.value| => SdgScore(forScoring.value[k].id, DefaultScore))
    else prev
  }

  /** `handleScoreChange`: every entry for the goal takes the new value. */
  function ChangeScore(prev: seq<SdgScore>, sdgId: int, value: int): (next: seq<SdgScore>)
    ensures |next| == |prev|
    ensures forall k :: 0 <= k < |prev| ==> next[k].sdgId == prev[k].sdgId
    ensures forall k :: 0 <= k < |prev| && prev[k].sdgId != sdgId ==> next[k] == prev[k]
    ensures forall k :: 0 <= k < |prev| && prev[k].sdgId == sdgId ==> next[k].score == value
  {
    seq(|prev|, k requires 0 <= k < |prev| =>
      if prev[k].sdgId == sdgId then prev[k].(score := value) else prev[k])
  }

  /** `scores.find(s => s.sdgId === id)`: the first entry for the goal. */
  function FindScore(scores: seq<SdgScore>, sdgId: int): (r: Option<SdgScore>)
    ensures r.Some? <==> exists k :: 0 <= k < |scores| && scores[k].sdgId == sdgId
    ensures r.Some? ==> exists k :: 0 <= k < |scores| && scores[k] == r.value && r.value.sdgId == sdgId
                          && forall j :: 0 <= j < k ==> scores[j].sdgId != sdgId
  {
    if |scores| == 0 then None
    else if scores[0].sdgId == sdgId then Some(scores[0])
    else
      var r := FindScore(scores[1..], sdgId);
      if r.Some? then
        ghost var k :| 0 <= k < |scores[1..]| && scores[1..][k] == r.value && r.value.sdgId == sdgId
                      && forall j :: 0 <= j < k ==> scores[1..][j].sdgId != sdgId;
        assert scores[k + 1] == r.value;
        r
      else
        assert forall k :: 1 <= k < |scores| ==> scores[1..][k - 1] == scores[k];
        r
  }

  /** `find(...)?.score || 3`: the score the screen highlights; a missing
      entry and a zero score both show the default. */
  function ShownScore(scores: seq<SdgScore>, sdgId: int): (shown: int)
    ensures (forall k :: 0 <= k < |scores| ==> scores[k].sdgId != sdgId) ==> shown == DefaultScore
    ensures (FindScore(scores, sdgId).Some? && FindScore(scores, sdgId).value.score != 0)
              ==> shown == FindScore(scores, sdgId).value.score
    ensures (FindScore(scores, sdgId).Some? && FindScore(scores, sdgId).value.score == 0)
              ==> shown == DefaultScore
  {
    match FindScore(scores, sdgId)
    case None => DefaultScore
    case Some(entry) => if entry.score != 0 then entry.score else DefaultScore
  }

  /** Scores that came from the buttons or the default lie in 1..5. */
  predicate ScoresInRange(scores: seq<SdgScore>)
  {
    forall k :: 0 <= k < |scores| ==> 1 <= scores[k].score <= 5
  }

  /** With scores from the buttons, the screen shows the score of the goal's
      first entry. */
  lemma ShownIsFirstEntry(scores: seq<SdgScore>, k: int)
    requires ScoresInRange(scores)
    requires 0 <= k < |scores|
    requires forall j :: 0 <= j < k ==> scores[j].sdgId != scores[k].sdgId
    ensures ShownScore(scores, scores[k].sdgId) == scores[k].score
  {
    var found := FindScore(scores, scores[k].sdgId);
    var i :| 0 <= i < |scores| && scores[i] == found.value && found.value.sdgId == scores[k].sdgId
             && forall j :: 0 <= j < i ==> scores[j].sdgId != scores[k].sdgId;
    assert i == k;
  }

  /** Freshly initialised scores show the default for every picked goal. */
  lemma InitScoresShowDefault(forScoring: seq<Sdg>, prev: seq<SdgScore>, k: int)
    requires |forScoring| > 0 && 0 <= k < |forScoring|
    ensures ScoresInRange(InitScores(Some(forScoring), prev))
    ensures ShownScore(InitScores(Some(forScoring), prev), forScoring[k].id) == DefaultScore
  {
    var scores := InitScores(Some(forScoring), prev);
    assert scores[k].sdgId == forScoring[k].id;
  }

  /** Clicking a button keeps every score in 1..5 and makes the screen show
      the clicked value for that goal. */
  lemma ChangeScoreFromButton(prev: seq<SdgScore>, sdgId: int, value: int)
    requires ScoresInRange(prev)
    requires value in ScoreButtons
    ensures ScoresInRange(ChangeScore(prev, sdgId, value))
    ensures (exists k :: 0 <= k < |prev| && prev[k].sdgId == sdgId) ==>
              ShownScore(ChangeScore(prev, sdgId, value), sdgId) == value
  {
    var next := ChangeScore(prev, sdgId, value);
    if exists k :: 0 <= k < |prev| && prev[k].sdgId == sdgId {
      var k :| 0 <= k < |prev| && prev[k].sdgId == sdgId;
      assert next[k].sdgId == sdgId;
      var found := FindScore(next, sdgId);
      var j :| 0 <= j < |next| && next[j] == found.value;
      assert found.value.score == value;
    }
  }

  /** The last click on a goal's buttons is the one that counts. */
  lemma ChangeScoreLastWins(prev: seq<SdgScore>, sdgId: int, a: int, b: int)
    ensures ChangeScore(ChangeScore(prev, sdgId, a), sdgId, b) == ChangeScore(prev, sdgId, b)
  {
  }
}

=== FILE: types.dfy ===
/** The records the screens and the recommendation service pass around
    (types.ts), with JavaScript's `null`/`undefined` as `None`. */
module Types {

  datatype Option<+T> = None | Some(value: T)

  /** One goal of the reference table; the icon component is presentation only. */
  datatype Sdg = Sdg(id: int, code: string, title: string, color: string)

  /** The importance a user gives one selected goal. */
  datatype SdgScore = SdgScore(sdgId: int, score: int)

  /** The three risk attitudes; on the wire they are their Korean labels. */
  datatype RiskPreference = Safe | Neutral | Aggressive

  function RiskLabel(r: RiskPreference): string
  {
    match r
    case Safe => "안전형"
    case Neutral => "중립형"
    case Aggressive => "공격형"
  }

  /** Everything the survey has gathered so far. */
  datatype SurveyData = SurveyData(
    selectedSdgs: seq<Sdg>,
    sdgScores: seq<SdgScore>,
    riskPreference: Option<RiskPreference>,
    investmentExperience: seq<string>,
    investmentPeriod: Option<string>)

  /** One recommended company. The last three fields are declared as always
      present, but the fallback data leaves them out, so they are optional. */
  datatype CompanyRecommendation = CompanyRecommendation(
    corpName: string,
    corpCode: string,
    matchScore: real,
    topSdg: string,
    explanation: string,
    sdgAlignment: seq<real>,
    investmentReport: Option<string>,
    snsPromotion: Option<string>,
    imageReferenceSentence: Option<string>)

  /** The parsed answer of the recommendation call; a parsed value without
      the list (or with a non-list there) has `None`. */
  datatype ModelOutput = ModelOutput(recommendedCompanies: Option<seq<CompanyRecommendation>>)
}
